=== FILE: README.md ===
# PromiedosPlato tournament core, modelled in Dafny

PromiedosPlato is a small web application for a football tournament. Four groups (A–D)
feed quarter-finals, semi-finals and a final, and the site keeps the tournament's champions
history. This project models its core:

- **Data model** (`schema.dfy`, module `Schema`). The stored records: team, phase, group,
  group-standing row, match, champion and team statistics. It covers the column defaults the
  database fills in and the validation a JSON body passes before it is inserted. It also covers
  the partial update of a match, where an absent key keeps the stored value and an explicit
  `null` clears it. A match insert or update is refused when a foreign key names no stored
  team, phase or group, and an update with an empty body is refused.
- **Storage queries** (`storage.dfy`, module `Storage`):
  - the ordered reads of groups (by name) and of standings (by position);
  - the two all-time leaderboards: goals as the SQL `SUM … COALESCE` query computes them, and
    clean sheets as its `COUNT(*)` computes them;
  - the `LIMIT 8` of both leaderboards.
- **Fixture tab** (`fixture.dfy`, module `Fixture`):
  - the phase state machine and the two buttons that drive it;
  - the fixed knockout bracket: four quarter-finals between group slots, two semi-finals and a
    final;
  - the knockout match lists (computed by the component but never rendered: the bracket
    shows fixed labels), the zone colouring of group tables, and the 4-row statistics side
    panel.
- **Group administration** (`group_management.dfy`, module `GroupAdmin`): adding a team to a
  group at position `count + 1`, removing a standing row, and the list of teams not yet
  assigned to a group.
- **Match administration** (`match_management.dfy`, module `MatchAdmin`): the form's
  normalisation before create/update, and the way an existing match is loaded back into the
  form.
- **Champions tab** (`champions.dfy`, module `Champions`): the champions table with its
  runner-up fallback, and the titles ranking (filter, sort descending, number from 1).

Helper modules:

- `Wrappers`: `Option`.
- `Seqs`: `Filter`/`Count` with their algebra.
- `Sorting`: a stable insertion sort over any total preorder, and the sorted top-k prefix
  used for `ORDER BY … LIMIT`.
- `Collation`: code-point order on names, proved to be a total order.

Ties under `ORDER BY` are left unspecified by SQL, so every ordered read is stated as
sortedness, a permutation or sub-multiset of the source rows, and (for `LIMIT`) the top-k
property. The model does not fix one tie order.

## Model

| member | source | states |
|---|---|---|
| Schema.CreateGroupStanding | shared/schema.ts:54-67 | a new standing row keeps its group, team and position; every counter left out of the insert is stored as 0 and every counter supplied is stored as given |
| Schema.NewStandingStartsAtZero | shared/schema.ts:54-67 | a row inserted with only group, team and position has played, won, drawn, lost, goals, difference and points all 0 |
| Schema.StoredCountersAreNotDerived | shared/schema.ts:59-66 | the counters are independent columns: a row can be stored whose points and goal difference disagree with its won/drawn/lost and goals |
| Schema.CreateMatch | shared/schema.ts:70-83 | a match insert is stored exactly when both teams, the phase and the group (if any) name stored rows; the stored row copies every supplied field, and `is_played` is true exactly when the insert said true |
| Schema.MatchRow | shared/schema.ts:70-83 | the row an insert describes: every supplied field copied, `is_played` defaulting to false, with the generated id and creation time |
| Schema.MatchRefsExist | shared/schema.ts:72-75 | the foreign keys of a match: both teams and the phase exist, and the group exists when one is set |
| Schema.CreateChampion | shared/schema.ts:86-92 | a new champion record keeps year, champion and optional runner-up, with the id and creation time the database supplies |
| Schema.CreateTeamStats | shared/schema.ts:95-102 | goals, clean sheets and titles default to 0 and are otherwise stored as given |
| Schema.Nullable | shared/schema.ts:75-81 | a nullable column reads a JSON value as present, and an absent key or `null` as NULL |
| Schema.ParseInsertMatch | shared/schema.ts:215-218 | a match body is accepted exactly when home, away and phase are present and `isPlayed` is not `null`; every other field is copied into the insert |
| Schema.SelfMatchAccepted | shared/schema.ts:70-74 | nothing in the schema forbids a match whose home and away team are the same existing team: the insert passes and is stored |
| Schema.KeepNullable | server/storage.ts:321-327 | in a partial update an absent key keeps the stored value, `null` clears it and a value replaces it |
| Schema.Keep | server/storage.ts:321-327 | in a partial update a not-null column keeps its value when the key is absent and takes the sent value otherwise |
| Schema.ValidPatch | shared/schema.ts:215-218 | the partial insert schema: any key may be missing, but a not-null column (teams, phase, played flag) may not be sent as `null` |
| Schema.EmptyPatch | server/storage.ts:321-324 | a body with no keys, which leaves the update nothing to set |
| Schema.UpdateMatch | server/routes.ts:257-265 | an update is refused when a not-null key is `null` or the body is empty, and the stored row never breaks a foreign key; a valid non-empty body naming existing rows succeeds; id and creation time are kept, and for every column an absent key keeps the stored value, `null` clears a nullable column and a value replaces it |
| Schema.EmptyUpdateIsRefused | server/storage.ts:321-327 | an update with an empty body is refused: `set` has no values |
| Schema.DanglingGroupRefused | shared/schema.ts:75 | an update naming a group that no stored group has is refused |
| Schema.SameValueUpdateIsIdentity | server/storage.ts:321-327 | a non-empty update whose every key is missing or carries the stored value (for nullable columns: leaves the column as it is) returns the match unchanged, when its references are valid |
| Storage.ByNameIsTotalPreorder | server/storage.ts:157-161 | ordering groups by name is a total preorder, so the sort is well defined |
| Storage.GroupsByPhase | server/storage.ts:157-161 | the groups of a phase are exactly the stored groups with that phase id (as a multiset), ordered by name |
| Storage.GroupStandings | server/storage.ts:169-183 | a group's standings are exactly its stored rows (as a multiset), ordered by ascending position |
| Storage.GroupStandingsSize | server/storage.ts:169-183 | the length of a group's standings equals the number of stored rows with that group id |
| Storage.GoalsScored | server/storage.ts:399-405 | the reference goal count: the team's goals in played matches, which is 0 when the team played none |
| Storage.MatchGoals | server/storage.ts:401-402 | what one match adds to a team: nothing unless the team played in it; outside a self-match, the team's own side's score with NULL as 0 |
| Storage.GoalsScoredAppend | server/storage.ts:399-405 | goals scored over two match lists is the sum over each |
| Storage.SqlSum | server/storage.ts:401-402 | SQL `SUM` is NULL exactly when every value is NULL |
| Storage.SqlSumSkipsNulls | server/storage.ts:401-402 | a non-null `SUM` equals the sum with NULLs counted as 0 |
| Storage.SumOrZeroOfZeros | server/storage.ts:401-402 | a column of zeros and NULLs sums to 0 |
| Storage.ColumnsAt | server/storage.ts:401-402 | the home column holds the home score where the team played at home, else 0; the away column likewise |
| Storage.PlayedRows | server/storage.ts:403-404 | the subquery's rows are exactly the played matches with the team on either side |
| Storage.GoalsQuery | server/storage.ts:399-406 | the goal total the query returns (the home `SUM` plus the away `SUM`, coalesced to 0) is 0 for a team without played matches |
| Storage.GoalsScoredByColumns | server/storage.ts:401-404 | over the team's appearances, the reference goal count is the home column's sum plus the away column's sum |
| Storage.GoalsScoredOfAppearances | server/storage.ts:403-404 | restricting the matches to the team's played appearances does not change its goals |
| Storage.NullColumnMeansNoGoals | server/storage.ts:400-405 | when no appearance is a self-match, a NULL column `SUM` can only come from a team without goals, so coalescing to 0 loses nothing |
| Storage.GoalsQueryAgreesWithoutSelfMatch | server/storage.ts:399-406 | when the team played no match against itself, the query's goal total equals the reference goal count |
| Storage.SelfMatchLosesGoals | server/storage.ts:399-406 | a played self-match with a NULL home score and an away score of 2 makes the query report 0 goals where the team scored 2 |
| Storage.CleanSheets | server/storage.ts:435-443 | a team's clean sheets never exceed its played appearances |
| Storage.KeptCleanSheet | server/storage.ts:439-442 | a clean sheet: a played match where the team is home and the away score is 0 or NULL, or away and the home score is 0 or NULL |
| Storage.CleanSheetMeansOpponentScoredNothing | server/storage.ts:439-442 | outside a self-match, a clean sheet is exactly a played appearance in which the opponent's score is 0 or NULL |
| Storage.CleanSheetsAppend | server/storage.ts:437-442 | clean sheets over two match lists is the sum over each |
| Storage.UnplayedMatchKeepsCleanSheets | server/storage.ts:442 | adding an unplayed match does not change any team's clean sheets |
| Storage.UnplayedMatchKeepsGoals | server/storage.ts:404 | adding an unplayed match does not change the reference goal count |
| Storage.UnplayedMatchKeepsGoalsQuery | server/storage.ts:404 | adding an unplayed match does not change the query's goal total |
| Storage.UnplayedMatchIsNoRow | server/storage.ts:403-404 | the subquery's rows are the same with or without an extra unplayed match |
| Storage.ScoreRows | server/storage.ts:395-408 | one row per team, pairing the team with its score |
| Storage.Leaderboard | server/storage.ts:411-420 | `ORDER BY score DESC LIMIT 8`: min(8, teams) rows, each a team with its own score, non-increasing, drawn from the scored rows without repetition |
| Storage.LeaderboardKeepsBest | server/storage.ts:411-420 | every team left off the leaderboard scores no more than every team on it |
| Storage.TopGoalScorers | server/storage.ts:395-429 | the top-scorer list has min(8, teams) rows in non-increasing query goal total, each row a team with its own total, drawn from the one-row-per-team list without repetition, and no team left out outscores one kept |
| Storage.TopDefenders | server/storage.ts:431-465 | the top-defender list has min(8, teams) rows in non-increasing clean-sheet count, each row a team with its own count, drawn from the one-row-per-team list without repetition, and no team left out has more than one kept |
| Sorting.InsertionSort | server/storage.ts:175 | sorting under a total preorder returns a permutation of the input that is sorted |
| Sorting.TopBy | server/storage.ts:420 | the first k of the sorted rows: min(k, n) rows, sorted, a sub-multiset of the input, and every kept row is ordered at or before every row left out |
| Collation.NameLeTotal | server/storage.ts:160 | any two names are comparable |
| Collation.NameLeTransitive | server/storage.ts:160 | name order is transitive |
| Collation.NameLeAntisymmetric | server/storage.ts:160 | two names ordered both ways are equal |
| Fixture.IndexOfPhaseOrder | client/src/components/fixture-tab.tsx:44-46 | the navigation list is the four phases starting at "groups", without repeats and without "brackets", so `indexOf` finds each at its own position |
| Fixture.IndexOf | client/src/components/fixture-tab.tsx:46 | `indexOf`: the first index holding the value, or -1 exactly when it is absent |
| Fixture.NextPhase | client/src/components/fixture-tab.tsx:44-54 | "groups" advances to "quarters"; "quarters", "semis" and "final" stay put; any state outside the list (such as "brackets") moves to "groups" |
| Fixture.PrevPhase | client/src/components/fixture-tab.tsx:56-62 | each listed phase after the first steps back one; "groups" and any unlisted state stay put |
| Fixture.Step | client/src/components/fixture-tab.tsx:44-66 | showing a phase goes to it; the next and previous steps end in a listed phase or leave the state as it was |
| Fixture.Run | client/src/components/fixture-tab.tsx:44-66 | after a run of inputs the state is the phase the last input showed; a run without any show ends in a listed phase or the starting state |
| Fixture.ShowPhaseSetsState | client/src/components/fixture-tab.tsx:64-66 | showing a phase sets the state to it, whatever came before |
| Fixture.ButtonsOnlyReachTwoStates | client/src/components/fixture-tab.tsx:74-90 | starting from "groups" or "brackets", any run of button clicks leaves the tab in "groups" or "brackets" |
| Fixture.PanelFor | client/src/components/fixture-tab.tsx:95-254 | the bracket renders exactly in "brackets" and the group tables exactly in "groups" |
| Fixture.ButtonsAlwaysShowAPanel | client/src/components/fixture-tab.tsx:7 | from the initial state the buttons always show a panel, while the unwired next-phase step would show none |
| Fixture.BracketCards | client/src/components/fixture-tab.tsx:108-246 | the cards drawn: quarter-finals A1-D2, B1-C2, A2-C1, B2-D1; semi-finals winner C1 v winner C2 and winner C3 v winner C4; final winner S1 v winner S2; each quarter-final is the one both its sides are assigned to |
| Fixture.EachQualifierPlaysOneQuarterFinal | client/src/components/fixture-tab.tsx:108-246 | each group winner and runner-up appears in exactly one quarter-final; third and lower places appear in none |
| Fixture.NoQuarterFinalWithinAGroup | client/src/components/fixture-tab.tsx:108-246 | no quarter-final pairs two teams of the same group |
| Fixture.QuarterOf | client/src/components/fixture-tab.tsx:108-246 | a slot's quarter-final is the one that lists it, and a slot with none is in no quarter-final |
| Fixture.SemiFedBy | client/src/components/fixture-tab.tsx:147-193 | the semi-final a quarter-final's winner goes to is one that names that winner |
| Fixture.BracketIsATree | client/src/components/fixture-tab.tsx:147-193 | quarter-finals 1–2 feed semi-final 1, 3–4 feed semi-final 2, and the final is winner S1 against winner S2 |
| Fixture.GroupMatesMeetOnlyInFinal | client/src/components/fixture-tab.tsx:108-246 | a group's winner and runner-up sit in opposite halves of the bracket |
| Fixture.MatchesOfPhase | client/src/components/fixture-tab.tsx:32-42 | a knockout list holds exactly the matches whose phase has that name (the lists are computed but not rendered) |
| Fixture.KnockoutListsAreDisjoint | client/src/components/fixture-tab.tsx:32-42 | no match is listed in two of the quarter-final, semi-final and final lists |
| Fixture.RowZone | client/src/components/fixture-tab.tsx:385 | rows 1–2 of a group table are the quarter-final zone, rows 3–4 the secondary zone, and the rest neither |
| Fixture.Zones | client/src/components/fixture-tab.tsx:383-385 | each row of an n-row table is coloured by its own index |
| Fixture.GroupTable | client/src/components/fixture-tab.tsx:383-410 | a group table shows the "Sin equipos asignados" row exactly when the group has no standings, otherwise one row per standing coloured by its index |
| Fixture.ZoneCounts | client/src/components/fixture-tab.tsx:385 | an n-row table has min(n, 2) qualifying rows and min(n, 4) − min(n, 2) secondary rows |
| Fixture.StatsSidebar | client/src/components/fixture-tab.tsx:288-326 | as written, each side panel (scorers, defenders) is always a table of the first min(4, n) rows, even when there are none |
| Fixture.EmptySidebarHasNoNotice | client/src/components/fixture-tab.tsx:288-326 | with no data the panel shows an empty table, not the "no data" notice |
| Fixture.StatsSidebarIntended | client/src/components/fixture-tab.tsx:288-326 | the intended panel shows the notice exactly when there is no data, else the first rows, at most 4 |
| Fixture.SidebarAgreesOnData | client/src/components/fixture-tab.tsx:288-326 | with at least one row the written and intended panels coincide |
| GroupAdmin.OnSubmit | client/src/components/admin/group.management.tsx:71-77 | the add request is sent exactly when both a group and a team are selected, and it carries the form unchanged |
| GroupAdmin.EmptyFormAddsNothing | client/src/components/admin/group.management.tsx:71-77 | the reset form is refused with the "select group and team" message |
| GroupAdmin.AddTeamRequest | client/src/components/admin/group.management.tsx:43-58 | the request's position is one more than the group's current row count, and it supplies no counters |
| GroupAdmin.AddTeamToGroup | client/src/components/admin/group.management.tsx:43-58 | adding appends one row, leaves every stored row unchanged, and the new row has position count + 1 and all counters 0 |
| GroupAdmin.AddKeepsPositionsContiguous | client/src/components/admin/group.management.tsx:47-50 | if a group's positions are exactly 1..n, after adding a team they are exactly 1..n+1 |
| GroupAdmin.AddLeavesOtherGroupsAlone | client/src/components/admin/group.management.tsx:52-56 | adding to one group does not change the standings read of any other group |
| GroupAdmin.RemoveStanding | client/src/components/admin/group.management.tsx:180-185 | removal keeps exactly the rows with a different id |
| GroupAdmin.RemoveThenAddRepeatsPosition | client/src/components/admin/group.management.tsx:47-50 | after removing position 1 of a two-team group, a team added next also gets position 2, so two rows share it; this relies on the deletion `GroupAdmin.RemoveStanding`, which no route performs (see Left out) |
| GroupAdmin.CollectStandings | client/src/components/admin/group.management.tsx:80-91 | the collected rows are exactly the stored rows of the listed groups |
| GroupAdmin.AssignedIsIncludes | client/src/components/admin/group.management.tsx:93-94 | a team is assigned exactly when its id is in the list of collected standings' team ids, one id per standing |
| GroupAdmin.AvailableTeams | client/src/components/admin/group.management.tsx:93-94 | the selectable teams are exactly the teams assigned to no group, with multiplicity and order kept |
| GroupAdmin.AvailableTeamsAppend | client/src/components/admin/group.management.tsx:94 | the selectable teams keep the list's order: filtering a concatenation concatenates the filtered parts |
| GroupAdmin.AvailableTeamsOne | client/src/components/admin/group.management.tsx:93-94 | a single team is selectable exactly when no collected standing carries its id |
| GroupAdmin.AllAssignedNotice | client/src/components/admin/group.management.tsx:146 | the "all assigned" notice shows exactly when there are teams and every one is assigned |
| MatchAdmin.Key | client/src/components/admin/match-management.tsx:105-111 | an undefined form value becomes an absent JSON key, any other value is sent as is |
| MatchAdmin.Normalize | client/src/components/admin/match-management.tsx:105-111 | the body sends scores only for a played match (else `null`) and the date only when it is non-empty (else `null`); the other fields are copied and gameweek is never sent |
| MatchAdmin.OnSubmit | client/src/components/admin/match-management.tsx:105-117 | an update is sent exactly when a match is being edited, to that match's id; otherwise a create; both carry the normalised body |
| MatchAdmin.StartEdit | client/src/components/admin/match-management.tsx:120-133 | loading a match keeps teams, phase and played flag; a 0 or missing score becomes empty; a missing group or round becomes "" |
| MatchAdmin.EditAndSaveAsWritten | client/src/components/admin/match-management.tsx:105-133 | opening a match and saving it unchanged: a match in a group is stored again with a missing round set to ""; a match without a group is refused, because "" names no group |
| MatchAdmin.EditAndSaveRefusedWithoutGroup | client/src/components/admin/match-management.tsx:126 | a match without a group (a knockout match) cannot be saved from the form: the update is refused |
| MatchAdmin.FormCreateRefused | client/src/components/admin/match-management.tsx:39-49 | a create from a form whose group is "" (the initial form, or one reset after editing a match with no group) passes the insert schema and is then refused by the group foreign key |
| MatchAdmin.DefaultFormIsBlank | client/src/components/admin/match-management.tsx:39-49 | the initial default values: no teams, phase, group or round, no scores, no date, not played |
| MatchAdmin.ResetRestoresLastEdit | client/src/components/admin/match-management.tsx:120-138 | `form.reset(values)` in `startEdit` replaces the defaults, so a later `form.reset()` (cancel, or a saved update or create at lines 81 and 62) brings back the edited match's values, its group included, whatever was typed |
| MatchAdmin.CreateAfterEditUsesEditedGroup | client/src/components/admin/match-management.tsx:105-138 | a create after cancelling an edit sends the edited match's group ("" when it had none), and with no group it is refused by the foreign key |
| MatchAdmin.TextOrNull | client/src/components/admin/match-management.tsx:126 | an empty text field is sent as `null`, any other text as itself |
| MatchAdmin.NormalizeIntended | client/src/components/admin/match-management.tsx:105-111 | the corrected body sends an empty group or round as `null` and a non-empty one as itself; every other key is what the written body sends |
| MatchAdmin.EditAndSaveIsIdentity | client/src/components/admin/match-management.tsx:105-133 | with the corrected body, opening a match with valid references and saving it unchanged returns the same match |
| MatchAdmin.IntendedCreateSucceeds | client/src/components/admin/match-management.tsx:39-49 | with the corrected body, a create naming existing teams and phase succeeds and stores no group |
| Champions.RunnerUpCell | client/src/components/champions-tab.tsx:44 | the runner-up cell shows the runner-up's name, or "-" when there is none or its name is empty |
| Champions.ByTitlesDesc | client/src/components/champions-tab.tsx:73-74 | the comparator is a valid sort order in which more titles rank strictly first and equal counts tie |
| Champions.ChampionsTableOf | client/src/components/champions-tab.tsx:34-52 | the "no champions" notice shows exactly when there are none; otherwise one row per champion, in order, with year, winner and runner-up cell |
| Champions.Number | client/src/components/champions-tab.tsx:75-78 | row i shows position i + 1 with its entry's team and titles |
| Champions.HasTitles | client/src/components/champions-tab.tsx:73 | `totalTitles > 0`, false when the row carries no titles |
| Champions.TitlesRanking | client/src/components/champions-tab.tsx:71-92 | the notice shows exactly when the list is empty; otherwise the rows are numbered 1..k, all have titles > 0, are in non-increasing titles, and are a permutation of the entries with titles |
| Champions.EntriesFromScorers | server/storage.ts:422-428 | the top-scorer rows as the ranking reads them: one entry per row, with its team and no titles |
| Champions.ScorerRowsRankNoTeam | client/src/components/champions-tab.tsx:9-11 | fed the top-scorer rows, which carry no titles, the ranking lists no team: the notice when there are no rows, else an empty table |

## Left out

- Authentication, tokens, the login form, toasts, query invalidation and every other piece of HTTP, React
  or database I/O. Each storage read is modelled as a pure function of the stored rows.
- Generated ids and `now()` are parameters of the create functions.
- Countries, users, teams' own create/update/delete, phases' create/update, and the teams tab.
  They are outside this core.
- `getAllMatches`, `getMatchesByPhase` and `getMatchesByGroup` ordered by date: dates are opaque
  strings here, so the date order and the per-row team/phase joins are not modelled. The knockout
  lists take matches with their phase name already joined (`Fixture.MatchView`).
- `getAllChampions` ordered by year and its team joins: the champions table takes the joined rows
  in the order received.
- Standings recomputation, qualification and bracket advancement: the code has none. Standing
  counters are whatever the admin stores, and the bracket shows fixed labels.
- Schema.CreateGroupStanding, Schema.CreateMatch, Schema.UpdateMatch, Schema.ParseInsertMatch:
  JSON numbers are integers here, and the 32-bit range of the `integer` columns (positions,
  counters, scores, gameweek) is not modelled. PostgreSQL refuses a value outside it, and the
  insert schema refuses a non-integer number; the model stores any integer as given.
- Storage.GoalsQuery: on the server this is a correlated subquery evaluated per team. It is modelled
  over the whole match list, and with the count as an unbounded integer (no 64-bit `bigint` overflow).
- Storage.CleanSheets: `COUNT(*)` is modelled as a recursive count. `COALESCE(x, 0) = 0` reads a
  NULL score as 0, so an unscored played match counts as a clean sheet for both sides.
- Collation.NameLe: PostgreSQL's locale collation is replaced by code-point order. Only sortedness
  under that order is claimed.
- GroupAdmin.RemoveStanding: the server has no `DELETE /api/standings/:id` route. The model is the
  plain row deletion the admin screen asks for.
- Fixture.NextPhase: no button calls it. It is modelled for its own behaviour, and
  `Fixture.ButtonsAlwaysShowAPanel` records what it would do.
- MatchAdmin.StartEdit: the date is carried as an opaque string. Only its truthiness is kept, not
  the `new Date(...)` round trip.
- Schema.CreateGroupStanding, Schema.CreateChampion, Schema.CreateTeamStats: their foreign keys
  (group and team, champion and runner-up, team) are not checked. Only the match foreign keys are
  modelled; the admin screens pick those ids from stored rows.
- Schema.UpdateMatch: PostgreSQL re-checks a foreign key only when the key changes. The model checks
  the whole updated row, which is the same for every stored row, since stored rows satisfy their keys.
- MatchAdmin.EditAndSaveAsWritten, MatchAdmin.EditAndSaveIsIdentity, MatchAdmin.IntendedCreateSucceeds:
  these hold only because dates are opaque strings here. The insert schema types `matchDate` as a
  date, which a JSON string does not pass, so a body that carries a date may be refused before any
  of this happens. Whether the insert schema accepts a JSON date is not modelled.
- The zod resolver's type checks on the admin forms (numbers for scores and so on): form fields
  are already typed in the model.

## Findings

| source | as written | input that shows it | evidently intended | confidence | as-written member | corrected member |
|---|---|---|---|---|---|---|
| server/storage.ts:399-406 | the goal total is `SUM(home) + SUM(away)`, coalesced to 0; when one `SUM` is NULL the whole total becomes NULL and then 0 | a played match with home = away = t, home score NULL and away score 2: the query reports 0 goals for t | a team's goals are the sum of its scores over played appearances | low (not executed; needs a self-match, which the schema allows) | Storage.SelfMatchLosesGoals | Storage.GoalsQueryAgreesWithoutSelfMatch |
| client/src/components/fixture-tab.tsx:288-326 | `topScorers?.slice(0, 4).map(...) \|\| <notice>` (lines 288-299) and the same for `topDefenders` (lines 314-326): an empty array is truthy, so the "No hay datos disponibles" row never shows in either panel | no top scorers or no defenders (an empty list): an empty table is shown, not the notice | the notice shows when there is no data | high (not executed) | Fixture.EmptySidebarHasNoNotice | Fixture.SidebarAgreesOnData |
| client/src/components/admin/match-management.tsx:105-111 | the body spreads the form, whose `groupId` is "" in the initial form and after editing a match with no group (no control edits the group; `form.reset()` restores the last edited match), so "" is sent instead of `null`; `group_id` references `groups.id` (shared/schema.ts:75), so the row is refused | create a match from a form whose group is "" (the initial form, or one reset after editing a match with no group): the insert is refused with 400; open a knockout match (no group) and save it unchanged: the update is refused with 400 and the match stays as it was | an empty group or round is sent as `null`: a create stores no group, and saving an unchanged match leaves it unchanged | high (not executed) | MatchAdmin.FormCreateRefused | MatchAdmin.IntendedCreateSucceeds |

Storage.TopGoalScorers ranks by the query as written (`Storage.GoalsQuery`). Outside a played
self-match the query agrees with the reference count `Storage.GoalsScored`.
The corrected side panel is `Fixture.StatsSidebarIntended` and the corrected match body is
`MatchAdmin.NormalizeIntended`. For the third finding, `MatchAdmin.EditAndSaveRefusedWithoutGroup`
and `MatchAdmin.EditAndSaveIsIdentity` are the edit-path halves.

=== FILE: champions.dfy ===
/** The public champions tab: the champions table with its runner-up fallback, and the titles
    ranking (filter, sort by titles descending, number the rows). */
module Champions {
  import opened Wrappers
  import opened Schema
  import Seqs
  import Sorting
  import Storage

  /** A champion with its teams joined in; the runner-up is absent when the record has none. */
  datatype ChampionView = ChampionView(champion: Champion, winner: Team, runnerUp: Option<Team>)

  /** `champion.runnerUp?.name || "-"`: the runner-up's name, or "-" when there is no
      runner-up or its name is empty. */
  function RunnerUpCell(c: ChampionView): (cell: string)
    ensures c.runnerUp == None ==> cell == "-"
    ensures c.runnerUp.Some? && c.runnerUp.value.name != "" ==> cell == c.runnerUp.value.name
    ensures c.runnerUp.Some? && c.runnerUp.value.name == "" ==> cell == "-"
    ensures cell == "-" || (c.runnerUp.Some? && cell == c.runnerUp.value.name)
  {
    if c.runnerUp.Some? && c.runnerUp.value.name != "" then c.runnerUp.value.name else "-"
  }

  datatype ChampionRow = ChampionRow(year: int, winner: string, runnerUp: string)

  datatype ChampionsTable = NoChampionsNotice | ChampionRows(rows: seq<ChampionRow>)

  /** The champions table: the notice exactly when there are no champions, otherwise one row
      per champion in the order received. */
  function ChampionsTableOf(cs: seq<ChampionView>): (t: ChampionsTable)
    ensures t.NoChampionsNotice? <==> |cs| == 0
    ensures t.ChampionRows? ==> |t.rows| == |cs|
    ensures t.ChampionRows? ==> forall i :: 0 <= i < |cs| ==>
      t.rows[i].year == cs[i].champion.year && t.rows[i].winner == cs[i].winner.name
      && t.rows[i].runnerUp == RunnerUpCell(cs[i])
  {
    if |cs| == 0 then NoChampionsNotice
    else ChampionRows(seq(|cs|, i requires 0 <= i < |cs| =>
      ChampionRow(cs[i].champion.year, cs[i].winner.name, RunnerUpCell(cs[i]))))
  }

  /** An entry the titles ranking reads: its team and its `totalTitles`, None where the row
      carries no such property (`undefined`). */
  datatype TitleEntry = TitleEntry(team: Team, totalTitles: Option<int>)

  /** `team.totalTitles > 0`; `undefined > 0` is false. */
  predicate HasTitles(e: TitleEntry) {
    e.totalTitles.Some? && e.totalTitles.value > 0
  }

  /** One ranking row: `index + 1`, the team and its titles. */
  datatype RankRow = RankRow(pos: int, team: Team, titles: int)

  datatype TitlesTable = NoTitlesNotice | Ranking(rows: seq<RankRow>)

  /** The comparator `b.totalTitles - a.totalTitles` as a sort order: a valid order in which
      more titles rank strictly first and equal counts tie. A missing count never reaches it,
      since the ranking keeps only entries with titles. */
  function ByTitlesDesc(): (le: (TitleEntry, TitleEntry) -> bool)
    ensures Sorting.TotalPreorder(le)
    ensures forall a, b :: le(a, b) && !le(b, a) <==> a.totalTitles.GetOr(0) > b.totalTitles.GetOr(0)
  {
    (a: TitleEntry, b: TitleEntry) => a.totalTitles.GetOr(0) >= b.totalTitles.GetOr(0)
  }

  /** `.map((team, index) => ...)`: row i shows position i + 1. */
  function Number(es: seq<TitleEntry>): (rows: seq<RankRow>)
    ensures |rows| == |es|
    ensures forall i :: 0 <= i < |es| ==> rows[i] == RankRow(i + 1, es[i].team, es[i].totalTitles.GetOr(0))
  {
    seq(|es|, i requires 0 <= i < |es| => RankRow(i + 1, es[i].team, es[i].totalTitles.GetOr(0)))
  }

  /** The entry a ranking row displays. */
  function EntryOf(r: RankRow): TitleEntry {
    TitleEntry(r.team, Some(r.titles))
  }

  function EntriesOf(rows: seq<RankRow>): (es: seq<TitleEntry>)
    ensures |es| == |rows|
    ensures forall i :: 0 <= i < |rows| ==> es[i] == EntryOf(rows[i])
  {
    seq(|rows|, i requires 0 <= i < |rows| => EntryOf(rows[i]))
  }

  /** The titles ranking. When the list is empty the "No hay títulos registrados" notice shows;
      otherwise the rows are the entries with titles, most titles first, numbered 1..k. */
  function TitlesRanking(entries: seq<TitleEntry>): (t: TitlesTable)
    ensures t.NoTitlesNotice? <==> |entries| == 0
    ensures t.Ranking? ==> forall i :: 0 <= i < |t.rows| ==> t.rows[i].pos == i + 1 && t.rows[i].titles > 0
    ensures t.Ranking? ==> forall i, j :: 0 <= i < j < |t.rows| ==> t.rows[i].titles >= t.rows[j].titles
    ensures t.Ranking? ==> multiset(EntriesOf(t.rows)) == multiset(Seqs.Filter(entries, HasTitles))
  {
    if |entries| == 0 then NoTitlesNotice
    else
      var kept := Seqs.Filter(entries, HasTitles);
      var sorted := Sorting.InsertionSort(kept, ByTitlesDesc());
      var rows := Number(sorted);
      assert forall i :: 0 <= i < |sorted| ==> sorted[i] in multiset(kept) && HasTitles(sorted[i]);
      assert EntriesOf(rows) == sorted;
      Ranking(rows)
  }

  /** The ranking as wired: its entries are the top-scorer rows, which carry no
      `totalTitles`. */
  function EntriesFromScorers(rows: seq<Storage.StatRow>): (es: seq<TitleEntry>)
    ensures |es| == |rows|
    ensures forall i :: 0 <= i < |rows| ==> es[i] == TitleEntry(rows[i].team, None)
  {
    seq(|rows|, i requires 0 <= i < |rows| => TitleEntry(rows[i].team, None))
  }

  /** Fed with top-scorer rows the ranking never lists a team: with no rows it shows the
      notice, with any rows an empty table. */
  lemma ScorerRowsRankNoTeam(rows: seq<Storage.StatRow>)
    ensures |rows| == 0 ==> TitlesRanking(EntriesFromScorers(rows)) == NoTitlesNotice
    ensures |rows| > 0 ==> TitlesRanking(EntriesFromScorers(rows)) == Ranking([])
  {
    var es := EntriesFromScorers(rows);
    if |rows| > 0 {
      var t := TitlesRanking(es);
      assert forall e :: e in es ==> !HasTitles(e);
      assert Seqs.Filter(es, HasTitles) == [];
      assert |EntriesOf(t.rows)| == 0;
    }
  }
}

=== FILE: collation.dfy ===
/** The order `ORDER BY name ASC` puts names in, taken as code-point lexicographic order
    (PostgreSQL's "C" collation): a prefix comes first, otherwise the first differing
    character decides. */
module Collation {

  predicate NameLe(a: string, b: string)
    decreases |a|
  {
    |a| == 0 || (|b| > 0 && (a[0] < b[0] || (a[0] == b[0] && NameLe(a[1..], b[1..]))))
  }

  /** Any two names are comparable. */
  lemma {:induction false} NameLeTotal(a: string, b: string)
    ensures NameLe(a, b) || NameLe(b, a)
    decreases |a|
  {
    if |a| > 0 && |b| > 0 && a[0] == b[0] {
      NameLeTotal(a[1..], b[1..]);
    }
  }

  /** The order is transitive. */
  lemma {:induction false} NameLeTransitive(a: string, b: string, c: string)
    requires NameLe(a, b) && NameLe(b, c)
    ensures NameLe(a, c)
    decreases |a|
  {
    if |a| > 0 && a[0] == b[0] && b[0] == c[0] {
      NameLeTransitive(a[1..], b[1..], c[1..]);
    }
  }

  /** Two names ordered both ways are the same name, so only equal names tie. */
  lemma {:induction false} NameLeAntisymmetric(a: string, b: string)
    requires NameLe(a, b) && NameLe(b, a)
    ensures a == b
    decreases |a|
  {
    if |a| > 0 {
      NameLeAntisymmetric(a[1..], b[1..]);
      assert a == [a[0]] + a[1..];
      assert b == [b[0]] + b[1..];
    }
  }
}

=== FILE: fixture.dfy ===
/** The public fixture tab: the phase-navigation state, the static knockout bracket, the
    knockout match lists, the colour zones of a group table and the statistics sidebar. */
module Fixture {
  import opened Wrappers
  import opened Schema
  import Seqs
  import Sorting

  // ---------------------------------------------------------------------------------------
  // Phase navigation

  /** The navigation order used by `nextPhase` and `prevPhase`. */
  const PhaseOrder: seq<string> := ["groups", "quarters", "semis", "final"]

  /** The state the tab starts in (`useState("groups")`). */
  const InitialPhase: string := "groups"

  /** `Array.prototype.indexOf`: the first index holding `x`, or -1 when there is none. */
  function IndexOf(xs: seq<string>, x: string): (r: int)
    ensures -1 <= r < |xs|
    ensures r == -1 <==> x !in xs
    ensures r >= 0 ==> xs[r] == x && forall j :: 0 <= j < r ==> xs[j] != x
  {
    if |xs| == 0 then -1
    else if xs[0] == x then 0
    else
      var k := IndexOf(xs[1..], x);
      assert forall y :: y in xs ==> y == xs[0] || y in xs[1..];
      if k == -1 then -1 else k + 1
  }

  /** The list starts at the initial state, holds no state twice and does not hold
      "brackets", so `indexOf` finds each listed state at its own position. */
  lemma IndexOfPhaseOrder()
    ensures |PhaseOrder| == 4 && PhaseOrder[0] == InitialPhase && "brackets" !in PhaseOrder
    ensures forall i, j :: 0 <= i < j < |PhaseOrder| ==> PhaseOrder[i] != PhaseOrder[j]
    ensures forall i :: 0 <= i < |PhaseOrder| ==> IndexOf(PhaseOrder, PhaseOrder[i]) == i
  {
  }

  /** `nextPhase`: moves on only when the next state is "quarters" or "groups"; "groups"
      goes to "quarters", the three knockout states stay put, and any state outside the
      order (index -1, such as "brackets") goes to "groups". */
  function NextPhase(current: string): (r: string)
    ensures current == "groups" ==> r == "quarters"
    ensures current in ["quarters", "semis", "final"] ==> r == current
    ensures current !in PhaseOrder ==> r == "groups"
  {
    var i := IndexOf(PhaseOrder, current);
    if i < |PhaseOrder| - 1 then
      var next := PhaseOrder[i + 1];
      if next == "quarters" || next == "groups" then next else current
    else current
  }

  /** `prevPhase`: a state at index i > 0 of the order moves to index i - 1; "groups" and any
      state outside the order stay put. */
  function PrevPhase(current: string): (r: string)
    ensures forall i :: 0 < i < |PhaseOrder| && current == PhaseOrder[i] ==> r == PhaseOrder[i - 1]
    ensures current == "groups" || current !in PhaseOrder ==> r == current
  {
    var i := IndexOf(PhaseOrder, current);
    if i > 0 then PhaseOrder[i - 1] else current
  }

  /** The inputs of the state: the two navigation functions and `showPhase(phase)`. */
  datatype Event = Next | Prev | Show(phase: string)

  /** One input: showing a phase goes there; the navigation functions stay within the phase
      list or leave the state as it was. */
  function Step(current: string, e: Event): (r: string)
    ensures e.Show? ==> r == e.phase
    ensures !e.Show? ==> r in PhaseOrder || r == current
  {
    match e
    case Next => NextPhase(current)
    case Prev => PrevPhase(current)
    case Show(phase) => phase
  }

  /** The state after a run of inputs: the last `showPhase` decides it, and a run without one
      never leaves the phase list and the starting state. */
  function Run(current: string, events: seq<Event>): (r: string)
    ensures |events| > 0 && events[|events| - 1].Show? ==> r == events[|events| - 1].phase
    ensures (forall i :: 0 <= i < |events| ==> !events[i].Show?) ==> r in PhaseOrder || r == current
    decreases |events|
  {
    if |events| == 0 then current
    else
      var rest := events[1..];
      assert forall i :: 0 <= i < |rest| ==> rest[i] == events[i + 1];
      Run(Step(current, events[0]), rest)
  }

  /** The only controls rendered are the two buttons `showPhase('groups')` and
      `showPhase('brackets')`; `nextPhase` and `prevPhase` are wired to nothing. */
  predicate IsButtonClick(e: Event) {
    e == Show("groups") || e == Show("brackets")
  }

  /** `showPhase` sets the state to exactly its argument, whatever the state was. */
  lemma ShowPhaseSetsState(current: string, phase: string, events: seq<Event>)
    ensures Run(current, [Show(phase)] + events) == Run(phase, events)
  {
    assert ([Show(phase)] + events)[1..] == events;
  }

  /** Starting from a state the buttons can produce, clicking only the buttons keeps the
      state at "groups" or "brackets". */
  lemma {:induction false} ButtonsOnlyReachTwoStates(current: string, clicks: seq<Event>)
    requires current == "groups" || current == "brackets"
    requires forall e :: e in clicks ==> IsButtonClick(e)
    ensures Run(current, clicks) == "groups" || Run(current, clicks) == "brackets"
    decreases |clicks|
  {
    if |clicks| > 0 {
      assert clicks[0] in clicks;
      assert forall e :: e in clicks[1..] ==> e in clicks;
      ButtonsOnlyReachTwoStates(Step(current, clicks[0]), clicks[1..]);
    }
  }

  /** What the left column shows for a state. */
  datatype Panel = BracketPanel | GroupTablesPanel | NoPanel

  function PanelFor(current: string): (p: Panel)
    ensures p == BracketPanel <==> current == "brackets"
    ensures p == GroupTablesPanel <==> current == "groups"
  {
    if current == "brackets" then BracketPanel
    else if current == "groups" then GroupTablesPanel
    else NoPanel
  }

  /** From the initial state, button clicks always leave a panel on screen; `nextPhase` from
      the initial state would reach "quarters", which shows nothing. */
  lemma ButtonsAlwaysShowAPanel(clicks: seq<Event>)
    requires forall e :: e in clicks ==> IsButtonClick(e)
    ensures PanelFor(Run(InitialPhase, clicks)) != NoPanel
    ensures PanelFor(NextPhase(InitialPhase)) == NoPanel
  {
    ButtonsOnlyReachTwoStates(InitialPhase, clicks);
  }

  // ---------------------------------------------------------------------------------------
  // The static bracket

  datatype GroupLetter = A | B | C | D

  /** The team finishing at `rank` in `group`. */
  datatype Slot = Slot(group: GroupLetter, rank: int)

  datatype Tie = Tie(home: Slot, away: Slot)

  /** The quarter-final cards, in order: A1-D2, B1-C2, A2-C1, B2-D1. */
  const QuarterFinals: seq<Tie> := [
    Tie(Slot(A, 1), Slot(D, 2)),
    Tie(Slot(B, 1), Slot(C, 2)),
    Tie(Slot(A, 2), Slot(C, 1)),
    Tie(Slot(B, 2), Slot(D, 1))
  ]

  /** The first two of each group reach the quarter-finals. */
  predicate Qualifies(s: Slot) {
    1 <= s.rank <= 2
  }

  /** How many quarter-final sides the slot fills. */
  function SlotUses(s: Slot): nat {
    Seqs.Count(QuarterFinals, (t: Tie) => t.home == s) + Seqs.Count(QuarterFinals, (t: Tie) => t.away == s)
  }

  /** Each of the eight qualifying slots is used exactly once and no other slot is used. */
  lemma EachQualifierPlaysOneQuarterFinal(s: Slot)
    ensures SlotUses(s) == if Qualifies(s) then 1 else 0
  {
    var home := (t: Tie) => t.home == s;
    var away := (t: Tie) => t.away == s;
    assert QuarterFinals[1..][1..][1..][1..] == [];
    assert Seqs.Count(QuarterFinals, home) == (if home(QuarterFinals[0]) then 1 else 0)
      + (if home(QuarterFinals[1]) then 1 else 0) + (if home(QuarterFinals[2]) then 1 else 0)
      + (if home(QuarterFinals[3]) then 1 else 0);
    assert Seqs.Count(QuarterFinals, away) == (if away(QuarterFinals[0]) then 1 else 0)
      + (if away(QuarterFinals[1]) then 1 else 0) + (if away(QuarterFinals[2]) then 1 else 0)
      + (if away(QuarterFinals[3]) then 1 else 0);
    match s.group
    case A =>
    case B =>
    case C =>
    case D =>
  }

  /** No quarter-final pairs two teams of the same group. */
  lemma NoQuarterFinalWithinAGroup()
    ensures forall i :: 0 <= i < |QuarterFinals| ==> QuarterFinals[i].home.group != QuarterFinals[i].away.group
  {
  }

  /** The 1-based number of the quarter-final a slot plays in, if any. */
  function QuarterOf(s: Slot): (q: Option<int>)
    ensures q.Some? ==> (1 <= q.value <= |QuarterFinals|
      && (QuarterFinals[q.value - 1].home == s || QuarterFinals[q.value - 1].away == s))
    ensures q == None ==> forall i :: 0 <= i < |QuarterFinals| ==> QuarterFinals[i].home != s && QuarterFinals[i].away != s
  {
    if s == Slot(A, 1) || s == Slot(D, 2) then Some(1)
    else if s == Slot(B, 1) || s == Slot(C, 2) then Some(2)
    else if s == Slot(A, 2) || s == Slot(C, 1) then Some(3)
    else if s == Slot(B, 2) || s == Slot(D, 1) then Some(4)
    else None
  }

  /** Where a knockout side comes from. */
  datatype Source = WinnerOfQuarter(quarter: int) | WinnerOfSemi(semi: int)

  datatype KnockoutTie = KnockoutTie(home: Source, away: Source)

  /** "GANADOR C1 VS GANADOR C2" and "GANADOR C3 VS GANADOR C4". */
  const SemiFinals: seq<KnockoutTie> := [
    KnockoutTie(WinnerOfQuarter(1), WinnerOfQuarter(2)),
    KnockoutTie(WinnerOfQuarter(3), WinnerOfQuarter(4))
  ]

  /** "GANADOR S1 VS GANADOR S2". */
  const FinalTie: KnockoutTie := KnockoutTie(WinnerOfSemi(1), WinnerOfSemi(2))

  /** The bracket cards as drawn: quarter-finals A1-D2, B1-C2, A2-C1, B2-D1; semi-finals
      winner C1 against winner C2 and winner C3 against winner C4; the final winner S1 against
      winner S2. Each quarter-final is the one `QuarterOf` gives both its sides. */
  lemma BracketCards()
    ensures QuarterFinals == [Tie(Slot(A, 1), Slot(D, 2)), Tie(Slot(B, 1), Slot(C, 2)),
                              Tie(Slot(A, 2), Slot(C, 1)), Tie(Slot(B, 2), Slot(D, 1))]
    ensures forall i :: 0 <= i < |QuarterFinals| ==>
              QuarterOf(QuarterFinals[i].home) == Some(i + 1) && QuarterOf(QuarterFinals[i].away) == Some(i + 1)
    ensures SemiFinals == [KnockoutTie(WinnerOfQuarter(1), WinnerOfQuarter(2)),
                           KnockoutTie(WinnerOfQuarter(3), WinnerOfQuarter(4))]
    ensures FinalTie == KnockoutTie(WinnerOfSemi(1), WinnerOfSemi(2))
  {
    forall i | 0 <= i < |QuarterFinals|
      ensures QuarterOf(QuarterFinals[i].home) == Some(i + 1) && QuarterOf(QuarterFinals[i].away) == Some(i + 1)
    {
      if i == 0 {
      } else if i == 1 {
      } else if i == 2 {
      } else {
      }
    }
  }

  /** The 1-based semi-final a quarter-final's winner goes to, read from the semi-final table. */
  function SemiFedBy(quarter: int): (s: Option<int>)
    ensures s.Some? ==> (1 <= s.value <= |SemiFinals|
      && (SemiFinals[s.value - 1].home == WinnerOfQuarter(quarter) || SemiFinals[s.value - 1].away == WinnerOfQuarter(quarter)))
  {
    if SemiFinals[0].home == WinnerOfQuarter(quarter) || SemiFinals[0].away == WinnerOfQuarter(quarter) then Some(1)
    else if SemiFinals[1].home == WinnerOfQuarter(quarter) || SemiFinals[1].away == WinnerOfQuarter(quarter) then Some(2)
    else None
  }

  /** Every quarter-final feeds exactly one semi-final side, every semi-final feeds one side of
      the final, and the final is fed by nothing else. */
  lemma BracketIsATree()
    ensures forall q :: 1 <= q <= 4 ==> SemiFedBy(q).Some?
    ensures forall q :: 1 <= q <= 4 ==>
      Seqs.Count(SemiFinals, (t: KnockoutTie) => t.home == WinnerOfQuarter(q) || t.away == WinnerOfQuarter(q)) == 1
    ensures SemiFedBy(1) == SemiFedBy(2) == Some(1) && SemiFedBy(3) == SemiFedBy(4) == Some(2)
    ensures FinalTie.home == WinnerOfSemi(1) && FinalTie.away == WinnerOfSemi(2)
  {
    forall q | 1 <= q <= 4
      ensures Seqs.Count(SemiFinals, (t: KnockoutTie) => t.home == WinnerOfQuarter(q) || t.away == WinnerOfQuarter(q)) == 1
    {
      var p := (t: KnockoutTie) => t.home == WinnerOfQuarter(q) || t.away == WinnerOfQuarter(q);
      assert SemiFinals[1..][1..] == [];
      assert Seqs.Count(SemiFinals, p) == (if p(SemiFinals[0]) then 1 else 0) + (if p(SemiFinals[1]) then 1 else 0);
    }
  }

  /** The half of the bracket (the semi-final) a qualifier's path leads to. */
  function HalfOf(s: Slot): Option<int> {
    match QuarterOf(s)
    case None => None
    case Some(q) => SemiFedBy(q)
  }

  /** The winner and runner-up of each group start in opposite halves, so two teams of the
      same group can only meet again in the final. */
  lemma GroupMatesMeetOnlyInFinal(g: GroupLetter)
    ensures HalfOf(Slot(g, 1)).Some? && HalfOf(Slot(g, 2)).Some?
    ensures HalfOf(Slot(g, 1)) != HalfOf(Slot(g, 2))
  {
  }

  // ---------------------------------------------------------------------------------------
  // Knockout match lists

  /** A match as the client receives it, with the name of its phase joined in. */
  datatype MatchView = MatchView(m: Match, phaseName: string)

  const QuartersName: string := "Cuartos de Final"
  const SemisName: string := "Semifinales"
  const FinalName: string := "Final"

  /** The matches whose phase has exactly this name, in list order. */
  function MatchesOfPhase(ms: seq<MatchView>, name: string): (r: seq<MatchView>)
    ensures forall v :: v in r <==> v in ms && v.phaseName == name
    ensures |r| <= |ms|
  {
    Seqs.Filter(ms, (v: MatchView) => v.phaseName == name)
  }

  /** The quarter-final, semi-final and final lists are sub-lists of the match list and no
      match is in two of them. */
  lemma KnockoutListsAreDisjoint(ms: seq<MatchView>)
    ensures var q := MatchesOfPhase(ms, QuartersName);
            var s := MatchesOfPhase(ms, SemisName);
            var f := MatchesOfPhase(ms, FinalName);
            (forall v :: v in q ==> v in ms && v !in s && v !in f)
            && (forall v :: v in s ==> v in ms && v !in f)
  {
  }

  // ---------------------------------------------------------------------------------------
  // Group table zones

  /** The background of a standings row: green (quarter-final places), yellow (Copa
      Sudamericana places) or none. */
  datatype Zone = QuarterFinalZone | SudamericanaZone | NoZone

  /** The zone of the row at `index` in the table as listed (ascending position). */
  function RowZone(index: nat): (z: Zone)
    ensures z == QuarterFinalZone <==> index < 2
    ensures z == SudamericanaZone <==> 2 <= index < 4
  {
    if index < 2 then QuarterFinalZone else if index < 4 then SudamericanaZone else NoZone
  }

  function Zones(n: nat): (zs: seq<Zone>)
    ensures |zs| == n
    ensures forall i :: 0 <= i < n ==> zs[i] == RowZone(i)
  {
    if n == 0 then [] else Zones(n - 1) + [RowZone(n - 1)]
  }

  /** A group table's body: the "Sin equipos asignados" row, or one coloured row per standing. */
  datatype GroupTableBody = NoTeamsNotice | ZonedRows(zones: seq<Zone>)

  /** The group table: the notice exactly when the group has no standings, otherwise one row
      per standing, row i coloured by its index. */
  function GroupTable<R>(standings: seq<R>): (t: GroupTableBody)
    ensures t.NoTeamsNotice? <==> |standings| == 0
    ensures t.ZonedRows? ==> |t.zones| == |standings| && forall i :: 0 <= i < |standings| ==> t.zones[i] == RowZone(i)
  {
    if |standings| > 0 then ZonedRows(Zones(|standings|)) else NoTeamsNotice
  }

  /** In a table of n rows, exactly min(n, 2) rows are green and min(n, 4) - min(n, 2) are
      yellow, whatever the stored positions say. */
  lemma {:induction false} ZoneCounts(n: nat)
    ensures Seqs.Count(Zones(n), (z: Zone) => z == QuarterFinalZone) == Sorting.Min(n, 2)
    ensures Seqs.Count(Zones(n), (z: Zone) => z == SudamericanaZone) == Sorting.Min(n, 4) - Sorting.Min(n, 2)
  {
    if n > 0 {
      ZoneCounts(n - 1);
      Seqs.CountAppend(Zones(n - 1), [RowZone(n - 1)], (z: Zone) => z == QuarterFinalZone);
      Seqs.CountAppend(Zones(n - 1), [RowZone(n - 1)], (z: Zone) => z == SudamericanaZone);
    }
  }

  // ---------------------------------------------------------------------------------------
  // Statistics sidebar

  /** A sidebar table: the "No hay datos disponibles" row or data rows. */
  datatype StatsTable<R> = NoData | Rows(rows: seq<R>)

  const SidebarRows: nat := 4

  /** The sidebar as written: `rows.slice(0, 4).map(...) || fallback`. The mapped array is
      always truthy, so the fallback row never appears, not even for an empty list. */
  function StatsSidebar<R>(rows: seq<R>): (t: StatsTable<R>)
    ensures t.Rows?
    ensures |t.rows| == Sorting.Min(SidebarRows, |rows|) && t.rows == rows[..|t.rows|]
  {
    Rows(rows[..Sorting.Min(SidebarRows, |rows|)])
  }

  /** With no statistics rows the sidebar shows an empty table instead of the fallback row. */
  lemma EmptySidebarHasNoNotice<R>()
    ensures StatsSidebar<R>([]) == Rows([])
  {
  }

  /** The sidebar as evidently intended: the fallback row exactly when there is no data,
      otherwise the first four rows. */
  function StatsSidebarIntended<R>(rows: seq<R>): (t: StatsTable<R>)
    ensures t.NoData? <==> |rows| == 0
    ensures t.Rows? ==> 0 < |t.rows| <= SidebarRows && |t.rows| <= |rows| && t.rows == rows[..|t.rows|]
  {
    if |rows| == 0 then NoData else Rows(rows[..Sorting.Min(SidebarRows, |rows|)])
  }

  /** The two agree whenever there is data. */
  lemma SidebarAgreesOnData<R>(rows: seq<R>)
    requires |rows| > 0
    ensures StatsSidebar(rows) == StatsSidebarIntended(rows)
  {
  }
}

=== FILE: group_management.dfy ===
/** The administrator's group screen: assigning a team to a group (a new standing at the next
    position), the list of teams still unassigned, and the submit guard. */
module GroupAdmin {
  import opened Wrappers
  import opened Schema
  import Seqs
  import Storage

  /** The two selections of the form; both start empty. */
  datatype AddTeamForm = AddTeamForm(groupId: string, teamId: string)

  const EmptyForm: AddTeamForm := AddTeamForm("", "")

  /** What a submit does: an error toast only, or the add mutation with the form's data. */
  datatype SubmitOutcome = SelectionMissing | AddTeamRequested(form: AddTeamForm)

  /** `onSubmit`: an empty group or team selection issues no mutation; otherwise exactly one
      add mutation carrying the form as it is. */
  function OnSubmit(f: AddTeamForm): (r: SubmitOutcome)
    ensures r.AddTeamRequested? <==> f.groupId != "" && f.teamId != ""
    ensures r.AddTeamRequested? ==> r.form == f
  {
    if f.groupId == "" || f.teamId == "" then SelectionMissing else AddTeamRequested(f)
  }

  /** Submitting the untouched form never adds anything. */
  lemma EmptyFormAddsNothing()
    ensures OnSubmit(EmptyForm) == SelectionMissing
  {
  }

  function InGroup(groupId: Id): GroupStanding -> bool {
    (s: GroupStanding) => s.groupId == groupId
  }

  /** The body the add mutation posts: the group and team of the form and, as position, one
      more than the number of standings the group's table currently lists. No counters are
      sent. */
  function AddTeamRequest(store: seq<GroupStanding>, f: AddTeamForm): (r: InsertGroupStanding)
    ensures r.groupId == f.groupId && r.teamId == f.teamId
    ensures r.position == Seqs.Count(store, InGroup(f.groupId)) + 1
    ensures r.played == r.won == r.drawn == r.lost == None
    ensures r.goalsFor == r.goalsAgainst == r.goalDifference == r.points == None
  {
    Storage.GroupStandingsSize(store, f.groupId);
    assert InGroup(f.groupId) == (s: GroupStanding) => s.groupId == f.groupId;
    InsertGroupStanding(f.groupId, f.teamId, |Storage.GroupStandings(store, f.groupId)| + 1,
      None, None, None, None, None, None, None, None)
  }

  /** The store after the add: the existing rows untouched and one new row appended, at the
      next position of its group, with every counter at 0. */
  function AddTeamToGroup(store: seq<GroupStanding>, f: AddTeamForm, id: Id): (r: seq<GroupStanding>)
    ensures |r| == |store| + 1 && r[..|store|] == store
    ensures r[|store|].id == id && r[|store|].groupId == f.groupId && r[|store|].teamId == f.teamId
    ensures r[|store|].position == Seqs.Count(store, InGroup(f.groupId)) + 1
    ensures r[|store|].played == r[|store|].won == r[|store|].drawn == r[|store|].lost == 0
    ensures r[|store|].goalsFor == r[|store|].goalsAgainst == r[|store|].goalDifference == r[|store|].points == 0
  {
    store + [CreateGroupStanding(AddTeamRequest(store, f), id)]
  }

  /** Some row of the group holds position `p`. */
  ghost predicate HasPosition(store: seq<GroupStanding>, groupId: Id, p: int) {
    exists s :: s in store && s.groupId == groupId && s.position == p
  }

  /** The group's rows hold exactly the positions 1..n, one row each. */
  ghost predicate PositionsExactly(store: seq<GroupStanding>, groupId: Id, n: nat) {
    && Seqs.Count(store, InGroup(groupId)) == n
    && (forall s :: s in store && s.groupId == groupId ==> 1 <= s.position <= n)
    && (forall p :: 1 <= p <= n ==> HasPosition(store, groupId, p))
  }

  /** Adding to a group whose positions are exactly 1..n yields exactly 1..n+1. */
  lemma AddKeepsPositionsContiguous(store: seq<GroupStanding>, f: AddTeamForm, id: Id, n: nat)
    requires PositionsExactly(store, f.groupId, n)
    ensures PositionsExactly(AddTeamToGroup(store, f, id), f.groupId, n + 1)
  {
    var r := AddTeamToGroup(store, f, id);
    var row := r[|store|];
    assert r == store + [row];
    Seqs.CountAppend(store, [row], InGroup(f.groupId));
    assert Seqs.Count([row], InGroup(f.groupId)) == 1;
    assert row.position == n + 1;
    assert forall s :: s in r ==> s in store || s == row;
    forall p | 1 <= p <= n + 1
      ensures HasPosition(r, f.groupId, p)
    {
      if p == n + 1 {
        assert row in r;
      } else {
        assert HasPosition(store, f.groupId, p);
        var s :| s in store && s.groupId == f.groupId && s.position == p;
        assert s in r;
      }
    }
  }

  /** An add to one group leaves every other group's table as it was. */
  lemma AddLeavesOtherGroupsAlone(store: seq<GroupStanding>, f: AddTeamForm, id: Id, other: Id)
    requires other != f.groupId
    ensures Storage.GroupStandings(AddTeamToGroup(store, f, id), other) == Storage.GroupStandings(store, other)
  {
    var r := AddTeamToGroup(store, f, id);
    var p := (s: GroupStanding) => s.groupId == other;
    assert r == store + [r[|store|]];
    Seqs.FilterAppend(store, [r[|store|]], p);
    assert Seqs.Filter([r[|store|]], p) == [];
    assert Seqs.Filter(store, p) + [] == Seqs.Filter(store, p);
  }

  /** Removing a standing deletes that row and renumbers nothing. */
  function RemoveStanding(store: seq<GroupStanding>, standingId: Id): (r: seq<GroupStanding>)
    ensures forall s :: s in r <==> s in store && s.id != standingId
  {
    Seqs.Filter(store, (s: GroupStanding) => s.id != standingId)
  }

  /** Because removal does not renumber, removing the first of two teams and adding a third
      gives two rows at position 2. */
  lemma RemoveThenAddRepeatsPosition(g: Id, t1: Id, t2: Id, t3: Id)
    ensures var s1 := GroupStanding("s1", g, t1, 1, 0, 0, 0, 0, 0, 0, 0, 0);
            var s2 := GroupStanding("s2", g, t2, 2, 0, 0, 0, 0, 0, 0, 0, 0);
            var r := AddTeamToGroup(RemoveStanding([s1, s2], "s1"), AddTeamForm(g, t3), "s3");
            |r| == 2 && r[0].groupId == r[1].groupId == g && r[0].position == r[1].position == 2
  {
    var s1 := GroupStanding("s1", g, t1, 1, 0, 0, 0, 0, 0, 0, 0, 0);
    var s2 := GroupStanding("s2", g, t2, 2, 0, 0, 0, 0, 0, 0, 0, 0);
    var rest := RemoveStanding([s1, s2], "s1");
    assert [s1, s2][1..] == [s2];
    assert [s2][1..] == [];
    assert rest == [s2];
    assert Seqs.Count(rest, InGroup(g)) == 1;
  }

  /** Every standing of the listed groups (the group-stage groups), group after group. */
  function CollectStandings(store: seq<GroupStanding>, groups: seq<Group>): (r: seq<GroupStanding>)
    ensures forall s :: s in r <==> s in store && exists g :: g in groups && g.id == s.groupId
  {
    if |groups| == 0 then []
    else
      assert forall g :: g in groups ==> g == groups[0] || g in groups[1..];
      Storage.GroupStandings(store, groups[0].id) + CollectStandings(store, groups[1..])
  }

  /** Whether a team id is among the collected standings' team ids (`includes`). */
  predicate Assigned(teamId: Id, collected: seq<GroupStanding>) {
    exists s :: s in collected && s.teamId == teamId
  }

  /** `assignedTeamIds.includes(id)`: a team is assigned exactly when its id is in the list of
      the collected standings' team ids, and the list has one id per standing, in order. */
  lemma AssignedIsIncludes(teamId: Id, collected: seq<GroupStanding>)
    ensures var ids := seq(|collected|, i requires 0 <= i < |collected| => collected[i].teamId);
            |ids| == |collected| && (Assigned(teamId, collected) <==> teamId in ids)
  {
    var ids := seq(|collected|, i requires 0 <= i < |collected| => collected[i].teamId);
    if Assigned(teamId, collected) {
      var s :| s in collected && s.teamId == teamId;
      var i :| 0 <= i < |collected| && collected[i] == s;
      assert ids[i] == teamId;
    }
    if teamId in ids {
      var i :| 0 <= i < |ids| && ids[i] == teamId;
      assert collected[i] in collected;
    }
  }

  /** `availableTeams`: the teams, in their order, whose id no collected standing carries. */
  function AvailableTeams(teams: seq<Team>, collected: seq<GroupStanding>): (r: seq<Team>)
    ensures forall t :: t in r <==> t in teams && !Assigned(t.id, collected)
    ensures forall t :: multiset(r)[t] == if Assigned(t.id, collected) then 0 else multiset(teams)[t]
  {
    Seqs.Filter(teams, (t: Team) => !Assigned(t.id, collected))
  }

  /** The selectable teams keep the order of the team list: filtering a concatenation is the
      concatenation of the filtered parts. */
  lemma AvailableTeamsAppend(a: seq<Team>, b: seq<Team>, collected: seq<GroupStanding>)
    ensures AvailableTeams(a + b, collected) == AvailableTeams(a, collected) + AvailableTeams(b, collected)
  {
    Seqs.FilterAppend(a, b, (t: Team) => !Assigned(t.id, collected));
  }

  /** A single team is selectable exactly when no collected standing carries its id. */
  lemma AvailableTeamsOne(t: Team, collected: seq<GroupStanding>)
    ensures AvailableTeams([t], collected) == if Assigned(t.id, collected) then [] else [t]
  {
  }

  /** The "all teams assigned" notice: no team left to pick, among at least one team. */
  function AllAssignedNotice(teams: seq<Team>, collected: seq<GroupStanding>): (shown: bool)
    ensures shown <==> |teams| > 0 && forall t :: t in teams ==> Assigned(t.id, collected)
  {
    var available := AvailableTeams(teams, collected);
    assert |available| == 0 <==> forall t :: t in teams ==> Assigned(t.id, collected) by {
      if |available| > 0 {
        assert available[0] in available;
      }
    }
    |available| == 0 && |teams| > 0
  }
}

=== FILE: match_management.dfy ===
/** The administrator's match form: how a submitted form becomes a create or update body,
    and how a stored match is loaded back into the form for editing. */
module MatchAdmin {
  import opened Wrappers
  import opened Schema

  /** The form's values. The form has no group control, so `groupId` keeps whatever it was
      reset to; scores are `undefined` (None) until typed. */
  datatype MatchForm = MatchForm(
    homeTeamId: string, awayTeamId: string, phaseId: string, groupId: string,
    homeScore: Option<int>, awayScore: Option<int>, isPlayed: bool,
    matchDate: Option<Timestamp>, round: string)

  /** The form's initial `defaultValues`. `form.reset()` restores the current default values,
      which are these only until `startEdit` replaces them (see `ResetWith`). */
  const DefaultForm: MatchForm := MatchForm("", "", "", "", None, None, false, None, "")

  /** The initial form is blank: no teams, phase, group or round, no scores, no date, unplayed. */
  lemma DefaultFormIsBlank()
    ensures DefaultForm.homeTeamId == "" && DefaultForm.awayTeamId == "" && DefaultForm.phaseId == ""
    ensures DefaultForm.groupId == "" && DefaultForm.round == ""
    ensures DefaultForm.homeScore == None && DefaultForm.awayScore == None
    ensures !DefaultForm.isPlayed && DefaultForm.matchDate == None
  {
  }

  /** The form's current values together with its current default values. */
  datatype FormState = FormState(values: MatchForm, defaults: MatchForm)

  const InitialFormState: FormState := FormState(DefaultForm, DefaultForm)

  /** `form.reset(v)`: shows `v` and makes it the new default values. */
  function ResetWith(s: FormState, v: MatchForm): FormState {
    FormState(v, v)
  }

  /** `form.reset()`: shows the current default values again. */
  function Reset(s: FormState): FormState {
    s.(values := s.defaults)
  }

  /** The administrator typing into the form: the values change, the defaults do not. */
  function Typed(s: FormState, v: MatchForm): FormState {
    s.(values := v)
  }

  /** JavaScript truthiness of an optional text value: `undefined` and "" are falsy. */
  predicate Truthy(o: Option<string>) {
    o.Some? && o.value != ""
  }

  /** A possibly-`undefined` form value as a JSON key: `undefined` keys are dropped. */
  function Key<T>(o: Option<T>): (f: Field<T>)
    ensures f != Null
    ensures f.Val? <==> o.Some?
    ensures f.Val? ==> f.v == o.value
  {
    if o.Some? then Val(o.value) else Absent
  }

  /** `onSubmit`'s `matchData`: scores are forced to null unless the match is marked played,
      a falsy date becomes null, and every other field is copied as it is. */
  function Normalize(f: MatchForm): (p: MatchPayload)
    ensures !f.isPlayed ==> p.homeScore == Null && p.awayScore == Null
    ensures f.isPlayed ==> p.homeScore == Key(f.homeScore) && p.awayScore == Key(f.awayScore)
    ensures Truthy(f.matchDate) ==> p.matchDate == Val(f.matchDate.value)
    ensures !Truthy(f.matchDate) ==> p.matchDate == Null
    ensures p.homeTeamId == Val(f.homeTeamId) && p.awayTeamId == Val(f.awayTeamId) && p.phaseId == Val(f.phaseId)
    ensures p.groupId == Val(f.groupId) && p.round == Val(f.round) && p.isPlayed == Val(f.isPlayed)
    ensures p.gameweek == Absent
  {
    MatchPayload(Val(f.homeTeamId), Val(f.awayTeamId), Val(f.phaseId), Val(f.groupId),
      if f.isPlayed then Key(f.homeScore) else Null,
      if f.isPlayed then Key(f.awayScore) else Null,
      Val(f.isPlayed),
      if Truthy(f.matchDate) then Val(f.matchDate.value) else Null,
      Val(f.round), Absent)
  }

  /** The request a submit issues. */
  datatype Mutation = CreateRequest(body: MatchPayload) | UpdateRequest(id: Id, body: MatchPayload)

  /** `onSubmit`: exactly one request, an update of the match being edited when there is one,
      a create otherwise; both carry the normalised form. */
  function OnSubmit(editing: Option<Match>, f: MatchForm): (r: Mutation)
    ensures r.UpdateRequest? <==> editing.Some?
    ensures r.UpdateRequest? ==> r.id == editing.value.id
    ensures r.body == Normalize(f)
  {
    match editing
    case Some(m) => UpdateRequest(m.id, Normalize(f))
    case None => CreateRequest(Normalize(f))
  }

  /** `startEdit`: the stored match loaded into the form. `x || undefined` turns a stored
      score of 0 into `undefined`, exactly like a NULL score; a missing group or round becomes
      "". Teams, phase and the played flag are copied. */
  function StartEdit(m: Match): (f: MatchForm)
    ensures f.homeTeamId == m.homeTeamId && f.awayTeamId == m.awayTeamId
    ensures f.phaseId == m.phaseId && f.isPlayed == m.isPlayed
    ensures f.homeScore == None <==> m.homeScore == None || m.homeScore == Some(0)
    ensures f.awayScore == None <==> m.awayScore == None || m.awayScore == Some(0)
    ensures f.homeScore.Some? ==> f.homeScore == m.homeScore
    ensures f.awayScore.Some? ==> f.awayScore == m.awayScore
    ensures m.groupId == None ==> f.groupId == ""
    ensures m.groupId.Some? ==> f.groupId == m.groupId.value
    ensures m.round == None ==> f.round == ""
    ensures m.round.Some? ==> f.round == m.round.value
    ensures Truthy(f.matchDate) <==> Truthy(m.matchDate)
  {
    MatchForm(m.homeTeamId, m.awayTeamId, m.phaseId,
      if Truthy(m.groupId) then m.groupId.value else "",
      if m.homeScore.Some? && m.homeScore.value != 0 then m.homeScore else None,
      if m.awayScore.Some? && m.awayScore.value != 0 then m.awayScore else None,
      m.isPlayed,
      if Truthy(m.matchDate) then m.matchDate else None,
      if Truthy(m.round) then m.round.value else "")
  }

  /** A match whose stored state the form can show: a played match, or an unplayed one with
      no scores, and no empty-text date. */
  predicate Editable(m: Match) {
    (m.isPlayed || (m.homeScore == None && m.awayScore == None)) && m.matchDate != Some("")
  }

  /** Opening a match for editing and saving it unchanged, as written. The body always sends
      the group, "" when the match has none, and no group has the id "": a match in a group
      comes back with a missing round overwritten by "", and a match without a group (every
      knockout match) is refused by the group foreign key. */
  lemma EditAndSaveAsWritten(m: Match, refs: Refs)
    requires Editable(m) && MatchRefsExist(m, refs) && "" !in refs.groupIds
    ensures m.groupId.Some? ==>
              UpdateMatch(m, Normalize(StartEdit(m)), refs) == Some(m.(round := Some(m.round.GetOr(""))))
    ensures m.groupId == None ==> UpdateMatch(m, Normalize(StartEdit(m)), refs) == None
  {
  }

  /** A knockout match (no group) cannot be saved from the form: the body sends the group
      id "", which names no group, and the update is refused. */
  lemma EditAndSaveRefusedWithoutGroup(m: Match, refs: Refs)
    requires Editable(m) && MatchRefsExist(m, refs) && "" !in refs.groupIds && m.groupId == None
    ensures UpdateMatch(m, Normalize(StartEdit(m)), refs) == None
  {
  }

  /** A form whose group is "" (the initial form, or one reset after editing a match with no
      group; the form has no group control) sends the group id "" on create: the body passes
      the insert schema, and the insert is then refused by the group foreign key. */
  lemma FormCreateRefused(f: MatchForm, refs: Refs, id: Id, now: Timestamp)
    requires f.groupId == "" && "" !in refs.groupIds
    ensures ParseInsertMatch(Normalize(f)).Some?
    ensures CreateMatch(ParseInsertMatch(Normalize(f)).value, id, now, refs) == None
  {
  }

  /** After `startEdit(m)`, whatever is typed, `form.reset()` (cancelling, or the update's
      success handler) brings back the edited match's values, group included, and not the
      initial defaults. */
  lemma ResetRestoresLastEdit(s: FormState, m: Match, typed: MatchForm)
    ensures Reset(Typed(ResetWith(s, StartEdit(m)), typed)).values == StartEdit(m)
    ensures Reset(Typed(ResetWith(s, StartEdit(m)), typed)).values.groupId == m.groupId.GetOr("")
  {
  }

  /** So a create after cancelling the edit of a match with no group is refused like one from
      the initial form, while after editing a match in group g the create goes to group g. */
  lemma CreateAfterEditUsesEditedGroup(m: Match, typed: MatchForm, refs: Refs, id: Id, now: Timestamp)
    ensures var f := Reset(Typed(ResetWith(InitialFormState, StartEdit(m)), typed)).values;
            ParseInsertMatch(Normalize(f)).Some? && ParseInsertMatch(Normalize(f)).value.groupId == Some(m.groupId.GetOr(""))
    ensures m.groupId == None && "" !in refs.groupIds ==>
              var f := Reset(Typed(ResetWith(InitialFormState, StartEdit(m)), typed)).values;
              CreateMatch(ParseInsertMatch(Normalize(f)).value, id, now, refs) == None
  {
    var f := Reset(Typed(ResetWith(InitialFormState, StartEdit(m)), typed)).values;
    ResetRestoresLastEdit(InitialFormState, m, typed);
    if m.groupId == None && "" !in refs.groupIds {
      FormCreateRefused(f, refs, id, now);
    }
  }

  /** A form text value as a nullable column: "" means none. */
  function TextOrNull(s: string): (f: Field<string>)
    ensures f == Null <==> s == ""
    ensures f != Null ==> f == Val(s)
  {
    if s == "" then Null else Val(s)
  }

  /** `onSubmit`'s `matchData` as evidently intended: as written, except that an empty group
      or round is sent as null. */
  function NormalizeIntended(f: MatchForm): (p: MatchPayload)
    ensures p.groupId == Null <==> f.groupId == ""
    ensures p.round == Null <==> f.round == ""
    ensures p.groupId == TextOrNull(f.groupId) && p.round == TextOrNull(f.round)
    ensures f.groupId != "" ==> p.groupId == Normalize(f).groupId
    ensures f.round != "" ==> p.round == Normalize(f).round
    ensures p.homeTeamId == Normalize(f).homeTeamId && p.awayTeamId == Normalize(f).awayTeamId
    ensures p.phaseId == Normalize(f).phaseId && p.isPlayed == Normalize(f).isPlayed
    ensures p.homeScore == Normalize(f).homeScore && p.awayScore == Normalize(f).awayScore
    ensures p.matchDate == Normalize(f).matchDate && p.gameweek == Normalize(f).gameweek
  {
    Normalize(f).(groupId := TextOrNull(f.groupId), round := TextOrNull(f.round))
  }

  /** With the intended normalisation, opening a match and saving it unchanged leaves it
      exactly as it was. */
  lemma EditAndSaveIsIdentity(m: Match, refs: Refs)
    requires Editable(m) && MatchRefsExist(m, refs) && m.groupId != Some("") && m.round != Some("")
    ensures UpdateMatch(m, NormalizeIntended(StartEdit(m)), refs) == Some(m)
  {
  }

  /** With the intended normalisation, a form create naming existing teams and phase succeeds
      and stores a match without a group. */
  lemma IntendedCreateSucceeds(f: MatchForm, refs: Refs, id: Id, now: Timestamp)
    requires f.groupId == ""
    requires f.homeTeamId in refs.teamIds && f.awayTeamId in refs.teamIds && f.phaseId in refs.phaseIds
    ensures ParseInsertMatch(NormalizeIntended(f)).Some?
    ensures var r := CreateMatch(ParseInsertMatch(NormalizeIntended(f)).value, id, now, refs);
            r.Some? && r.value.groupId == None
  {
  }
}

=== FILE: schema.dfy ===
/** The stored records of the tournament database, their insert shapes and column defaults,
    and how a JSON match payload is validated and applied. Ids are the text primary keys;
    timestamps are opaque values. */
module Schema {
  import opened Wrappers

  type Id = string

  /** Timestamps (`createdAt`, `updatedAt`, `matchDate`) are carried but never interpreted. */
  type Timestamp = string

  datatype Team = Team(
    id: Id, name: string, shortName: string, countryId: Id,
    logoUrl: Option<string>, nickname: Option<string>, founded: Option<string>,
    stadium: Option<string>, city: Option<string>,
    golesLibcup: int, createdAt: Timestamp)

  datatype Phase = Phase(id: Id, name: string, order: int, isActive: bool, isUnlocked: bool)

  datatype Group = Group(id: Id, name: string, phaseId: Id)

  /** One team's row in one group's table. Every counter is an independent stored integer:
      nothing ties `goalDifference` or `points` to the other columns. */
  datatype GroupStanding = GroupStanding(
    id: Id, groupId: Id, teamId: Id, position: int,
    played: int, won: int, drawn: int, lost: int,
    goalsFor: int, goalsAgainst: int, goalDifference: int, points: int)

  datatype Match = Match(
    id: Id, homeTeamId: Id, awayTeamId: Id, phaseId: Id, groupId: Option<Id>,
    homeScore: Option<int>, awayScore: Option<int>, isPlayed: bool,
    matchDate: Option<Timestamp>, round: Option<string>, gameweek: Option<int>,
    createdAt: Timestamp)

  datatype Champion = Champion(id: Id, year: int, championId: Id, runnerUpId: Option<Id>, createdAt: Timestamp)

  datatype TeamStats = TeamStats(
    id: Id, teamId: Id, allTimeGoals: int, allTimeCleanSheets: int, totalTitles: int,
    updatedAt: Timestamp)

  /** Insert shapes omit `id`, `createdAt` and `updatedAt`; a column with a default is optional. */
  datatype InsertGroupStanding = InsertGroupStanding(
    groupId: Id, teamId: Id, position: int,
    played: Option<int>, won: Option<int>, drawn: Option<int>, lost: Option<int>,
    goalsFor: Option<int>, goalsAgainst: Option<int>, goalDifference: Option<int>,
    points: Option<int>)

  datatype InsertMatch = InsertMatch(
    homeTeamId: Id, awayTeamId: Id, phaseId: Id, groupId: Option<Id>,
    homeScore: Option<int>, awayScore: Option<int>, isPlayed: Option<bool>,
    matchDate: Option<Timestamp>, round: Option<string>, gameweek: Option<int>)

  datatype InsertChampion = InsertChampion(year: int, championId: Id, runnerUpId: Option<Id>)

  datatype InsertTeamStats = InsertTeamStats(
    teamId: Id, allTimeGoals: Option<int>, allTimeCleanSheets: Option<int>, totalTitles: Option<int>)

  /** The row the store creates for a standing insert: each omitted counter defaults to 0,
      each given value is stored as it is. */
  function CreateGroupStanding(ins: InsertGroupStanding, id: Id): (r: GroupStanding)
    ensures r.id == id && r.groupId == ins.groupId && r.teamId == ins.teamId
    ensures r.position == ins.position
    ensures ins.played == None ==> r.played == 0
    ensures ins.won == None ==> r.won == 0
    ensures ins.drawn == None ==> r.drawn == 0
    ensures ins.lost == None ==> r.lost == 0
    ensures ins.goalsFor == None ==> r.goalsFor == 0
    ensures ins.goalsAgainst == None ==> r.goalsAgainst == 0
    ensures ins.goalDifference == None ==> r.goalDifference == 0
    ensures ins.points == None ==> r.points == 0
    ensures ins.played.Some? ==> r.played == ins.played.value
    ensures ins.won.Some? ==> r.won == ins.won.value
    ensures ins.drawn.Some? ==> r.drawn == ins.drawn.value
    ensures ins.lost.Some? ==> r.lost == ins.lost.value
    ensures ins.goalsFor.Some? ==> r.goalsFor == ins.goalsFor.value
    ensures ins.goalsAgainst.Some? ==> r.goalsAgainst == ins.goalsAgainst.value
    ensures ins.goalDifference.Some? ==> r.goalDifference == ins.goalDifference.value
    ensures ins.points.Some? ==> r.points == ins.points.value
  {
    GroupStanding(id, ins.groupId, ins.teamId, ins.position,
      ins.played.GetOr(0), ins.won.GetOr(0), ins.drawn.GetOr(0), ins.lost.GetOr(0),
      ins.goalsFor.GetOr(0), ins.goalsAgainst.GetOr(0), ins.goalDifference.GetOr(0),
      ins.points.GetOr(0))
  }

  /** A standing that names only group, team and position starts with every counter at 0. */
  lemma NewStandingStartsAtZero(groupId: Id, teamId: Id, position: int, id: Id)
    ensures var r := CreateGroupStanding(InsertGroupStanding(groupId, teamId, position,
                       None, None, None, None, None, None, None, None), id);
            r.played == r.won == r.drawn == r.lost == 0 &&
            r.goalsFor == r.goalsAgainst == r.goalDifference == r.points == 0 &&
            r.position == position
  {
  }

  /** The schema accepts a standing whose goal difference and points disagree with its other
      counters: they are stored, not derived. */
  lemma StoredCountersAreNotDerived(groupId: Id, teamId: Id, id: Id)
    ensures var r := CreateGroupStanding(InsertGroupStanding(groupId, teamId, 1,
                       Some(1), Some(1), None, None, Some(3), Some(0), Some(7), Some(0)), id);
            r.goalDifference != r.goalsFor - r.goalsAgainst && r.points != 3 * r.won + r.drawn
  {
  }

  /** The ids stored in the tables a match refers to: what its foreign keys are checked
      against. Every id is a generated uuid, never "". */
  datatype Refs = Refs(teamIds: set<Id>, phaseIds: set<Id>, groupIds: set<Id>)

  /** The match's foreign keys hold: both teams and the phase exist, and the group, when
      there is one, exists. */
  predicate MatchRefsExist(m: Match, refs: Refs) {
    m.homeTeamId in refs.teamIds && m.awayTeamId in refs.teamIds && m.phaseId in refs.phaseIds
    && (m.groupId.Some? ==> m.groupId.value in refs.groupIds)
  }

  /** The row a match insert would store: `isPlayed` defaults to false, everything else is
      stored as given. */
  function MatchRow(ins: InsertMatch, id: Id, now: Timestamp): (r: Match)
    ensures r.id == id && r.createdAt == now
    ensures r.homeTeamId == ins.homeTeamId && r.awayTeamId == ins.awayTeamId
    ensures r.phaseId == ins.phaseId && r.groupId == ins.groupId
    ensures r.homeScore == ins.homeScore && r.awayScore == ins.awayScore
    ensures r.isPlayed <==> ins.isPlayed == Some(true)
    ensures r.matchDate == ins.matchDate && r.round == ins.round && r.gameweek == ins.gameweek
  {
    Match(id, ins.homeTeamId, ins.awayTeamId, ins.phaseId, ins.groupId,
      ins.homeScore, ins.awayScore, ins.isPlayed.GetOr(false),
      ins.matchDate, ins.round, ins.gameweek, now)
  }

  /** `createMatch`: the insert is refused (None) when a foreign key names no stored row;
      otherwise the row is stored as given, with `isPlayed` defaulting to false. */
  function CreateMatch(ins: InsertMatch, id: Id, now: Timestamp, refs: Refs): (r: Option<Match>)
    ensures r.Some? <==> ins.homeTeamId in refs.teamIds && ins.awayTeamId in refs.teamIds
                         && ins.phaseId in refs.phaseIds
                         && (ins.groupId.Some? ==> ins.groupId.value in refs.groupIds)
    ensures r.Some? ==> MatchRefsExist(r.value, refs)
    ensures r.Some? ==> r.value.id == id && r.value.createdAt == now
    ensures r.Some? ==> r.value.homeTeamId == ins.homeTeamId && r.value.awayTeamId == ins.awayTeamId
    ensures r.Some? ==> r.value.phaseId == ins.phaseId && r.value.groupId == ins.groupId
    ensures r.Some? ==> r.value.homeScore == ins.homeScore && r.value.awayScore == ins.awayScore
    ensures r.Some? ==> (r.value.isPlayed <==> ins.isPlayed == Some(true))
    ensures r.Some? ==> r.value.matchDate == ins.matchDate && r.value.round == ins.round
    ensures r.Some? ==> r.value.gameweek == ins.gameweek
  {
    var row := MatchRow(ins, id, now);
    if MatchRefsExist(row, refs) then Some(row) else None
  }

  function CreateChampion(ins: InsertChampion, id: Id, now: Timestamp): (r: Champion)
    ensures r.id == id && r.createdAt == now
    ensures r.year == ins.year && r.championId == ins.championId && r.runnerUpId == ins.runnerUpId
  {
    Champion(id, ins.year, ins.championId, ins.runnerUpId, now)
  }

  /** The row the store creates for a statistics insert: each omitted counter defaults to 0. */
  function CreateTeamStats(ins: InsertTeamStats, id: Id, now: Timestamp): (r: TeamStats)
    ensures r.id == id && r.teamId == ins.teamId && r.updatedAt == now
    ensures ins.allTimeGoals == None ==> r.allTimeGoals == 0
    ensures ins.allTimeCleanSheets == None ==> r.allTimeCleanSheets == 0
    ensures ins.totalTitles == None ==> r.totalTitles == 0
    ensures ins.allTimeGoals.Some? ==> r.allTimeGoals == ins.allTimeGoals.value
    ensures ins.allTimeCleanSheets.Some? ==> r.allTimeCleanSheets == ins.allTimeCleanSheets.value
    ensures ins.totalTitles.Some? ==> r.totalTitles == ins.totalTitles.value
  {
    TeamStats(id, ins.teamId, ins.allTimeGoals.GetOr(0), ins.allTimeCleanSheets.GetOr(0),
      ins.totalTitles.GetOr(0), now)
  }

  /** The state of one key of a JSON body: missing (`undefined` is dropped by JSON
      serialisation), explicitly `null`, or a value. */
  datatype Field<+T> = Absent | Null | Val(v: T)

  /** A match as sent in a POST or PUT body. */
  datatype MatchPayload = MatchPayload(
    homeTeamId: Field<Id>, awayTeamId: Field<Id>, phaseId: Field<Id>, groupId: Field<Id>,
    homeScore: Field<int>, awayScore: Field<int>, isPlayed: Field<bool>,
    matchDate: Field<Timestamp>, round: Field<string>, gameweek: Field<int>)

  /** A nullable column's insert value: missing and `null` both store NULL. */
  function Nullable<T>(f: Field<T>): (r: Option<T>)
    ensures r.Some? <==> f.Val?
    ensures f.Val? ==> r.value == f.v
  {
    match f
    case Val(v) => Some(v)
    case _ => None
  }

  /** The insert-schema check of a match payload: the three not-null columns without a default
      must be present and non-null, `isPlayed` may be missing but not null, the rest are
      nullable. Nothing relates the two team ids. */
  function ParseInsertMatch(p: MatchPayload): (r: Option<InsertMatch>)
    ensures r.Some? <==> p.homeTeamId.Val? && p.awayTeamId.Val? && p.phaseId.Val? && !p.isPlayed.Null?
    ensures r.Some? ==> r.value.homeTeamId == p.homeTeamId.v && r.value.awayTeamId == p.awayTeamId.v
    ensures r.Some? ==> r.value.phaseId == p.phaseId.v
    ensures r.Some? ==> r.value.groupId == Nullable(p.groupId) && r.value.round == Nullable(p.round)
    ensures r.Some? ==> r.value.homeScore == Nullable(p.homeScore) && r.value.awayScore == Nullable(p.awayScore)
    ensures r.Some? ==> r.value.matchDate == Nullable(p.matchDate) && r.value.gameweek == Nullable(p.gameweek)
    ensures r.Some? ==> r.value.isPlayed == Nullable(p.isPlayed)
  {
    if p.homeTeamId.Val? && p.awayTeamId.Val? && p.phaseId.Val? && !p.isPlayed.Null? then
      Some(InsertMatch(p.homeTeamId.v, p.awayTeamId.v, p.phaseId.v, Nullable(p.groupId),
        Nullable(p.homeScore), Nullable(p.awayScore), Nullable(p.isPlayed),
        Nullable(p.matchDate), Nullable(p.round), Nullable(p.gameweek)))
    else None
  }

  /** A match whose home and away team are the same existing team passes the insert check
      and is stored. */
  lemma SelfMatchAccepted(teamId: Id, phaseId: Id, id: Id, now: Timestamp, refs: Refs)
    requires teamId in refs.teamIds && phaseId in refs.phaseIds
    ensures var p := MatchPayload(Val(teamId), Val(teamId), Val(phaseId), Absent, Absent, Absent,
                       Absent, Absent, Absent, Absent);
            ParseInsertMatch(p).Some? &&
            var r := CreateMatch(ParseInsertMatch(p).value, id, now, refs);
            r.Some? && r.value.homeTeamId == r.value.awayTeamId && !r.value.isPlayed
            && r.value.homeScore == None && r.value.groupId == None
  {
  }

  /** The partial-schema check of an update body: every key may be missing; a not-null column
      may not be set to null. */
  predicate ValidPatch(p: MatchPayload) {
    !p.homeTeamId.Null? && !p.awayTeamId.Null? && !p.phaseId.Null? && !p.isPlayed.Null?
  }

  /** A body with no keys at all: the update has no values to set and is refused. */
  predicate EmptyPatch(p: MatchPayload) {
    p == MatchPayload(Absent, Absent, Absent, Absent, Absent, Absent, Absent, Absent, Absent, Absent)
  }

  /** The new value of a not-null column: unchanged when the key is missing. */
  function Keep<T>(current: T, f: Field<T>): (r: T)
    requires !f.Null?
    ensures f.Absent? ==> r == current
    ensures f.Val? ==> r == f.v
  {
    if f.Val? then f.v else current
  }

  /** The new value of a nullable column: unchanged when the key is missing, NULL when it is null. */
  function KeepNullable<T>(current: Option<T>, f: Field<T>): (r: Option<T>)
    ensures f.Absent? ==> r == current
    ensures f.Null? ==> r == None
    ensures f.Val? ==> r == Some(f.v)
  {
    match f
    case Absent => current
    case Null => None
    case Val(v) => Some(v)
  }

  /** The stored match with the keys of a valid body applied. */
  function Patched(m: Match, p: MatchPayload): Match
    requires ValidPatch(p)
  {
    Match(m.id, Keep(m.homeTeamId, p.homeTeamId), Keep(m.awayTeamId, p.awayTeamId),
      Keep(m.phaseId, p.phaseId), KeepNullable(m.groupId, p.groupId),
      KeepNullable(m.homeScore, p.homeScore), KeepNullable(m.awayScore, p.awayScore),
      Keep(m.isPlayed, p.isPlayed), KeepNullable(m.matchDate, p.matchDate),
      KeepNullable(m.round, p.round), KeepNullable(m.gameweek, p.gameweek), m.createdAt)
  }

  /** `PUT /api/matches/:id`: the body passes the partial schema, `updateMatch` sets exactly
      the keys present in it, and the update is refused (None) when there is nothing to set or
      when the updated row breaks a foreign key. */
  function UpdateMatch(m: Match, p: MatchPayload, refs: Refs): (r: Option<Match>)
    ensures !ValidPatch(p) || EmptyPatch(p) ==> r == None
    ensures r.Some? ==> MatchRefsExist(r.value, refs)
    ensures ValidPatch(p) && !EmptyPatch(p) && MatchRefsExist(m, refs)
            && (p.homeTeamId.Val? ==> p.homeTeamId.v in refs.teamIds)
            && (p.awayTeamId.Val? ==> p.awayTeamId.v in refs.teamIds)
            && (p.phaseId.Val? ==> p.phaseId.v in refs.phaseIds)
            && (p.groupId.Val? ==> p.groupId.v in refs.groupIds)
            ==> r.Some?
    ensures r.Some? ==> r.value.id == m.id && r.value.createdAt == m.createdAt
    ensures r.Some? && p.homeTeamId.Absent? ==> r.value.homeTeamId == m.homeTeamId
    ensures r.Some? && p.homeTeamId.Val? ==> r.value.homeTeamId == p.homeTeamId.v
    ensures r.Some? && p.awayTeamId.Absent? ==> r.value.awayTeamId == m.awayTeamId
    ensures r.Some? && p.awayTeamId.Val? ==> r.value.awayTeamId == p.awayTeamId.v
    ensures r.Some? && p.phaseId.Absent? ==> r.value.phaseId == m.phaseId
    ensures r.Some? && p.phaseId.Val? ==> r.value.phaseId == p.phaseId.v
    ensures r.Some? && p.isPlayed.Absent? ==> r.value.isPlayed == m.isPlayed
    ensures r.Some? && p.isPlayed.Val? ==> r.value.isPlayed == p.isPlayed.v
    ensures r.Some? ==> r.value.groupId == KeepNullable(m.groupId, p.groupId)
    ensures r.Some? ==> r.value.homeScore == KeepNullable(m.homeScore, p.homeScore)
    ensures r.Some? ==> r.value.awayScore == KeepNullable(m.awayScore, p.awayScore)
    ensures r.Some? ==> r.value.matchDate == KeepNullable(m.matchDate, p.matchDate)
    ensures r.Some? ==> r.value.round == KeepNullable(m.round, p.round)
    ensures r.Some? ==> r.value.gameweek == KeepNullable(m.gameweek, p.gameweek)
  {
    if !ValidPatch(p) || EmptyPatch(p) then None
    else
      var row := Patched(m, p);
      if MatchRefsExist(row, refs) then Some(row) else None
  }

  /** A body that names a group no stored group has is refused, whatever else it sets. */
  lemma DanglingGroupRefused(m: Match, p: MatchPayload, refs: Refs)
    requires p.groupId.Val? && p.groupId.v !in refs.groupIds
    ensures UpdateMatch(m, p, refs) == None
  {
  }

  /** An update body with no keys is refused: there are no values to set. */
  lemma EmptyUpdateIsRefused(m: Match, refs: Refs)
    ensures UpdateMatch(m, MatchPayload(Absent, Absent, Absent, Absent, Absent, Absent, Absent,
              Absent, Absent, Absent), refs) == None
  {
  }

  /** A non-empty update whose every key is missing or sets its column to the stored value
      leaves the match as it was. */
  lemma SameValueUpdateIsIdentity(m: Match, p: MatchPayload, refs: Refs)
    requires !EmptyPatch(p) && MatchRefsExist(m, refs)
    requires p.homeTeamId == Absent || p.homeTeamId == Val(m.homeTeamId)
    requires p.awayTeamId == Absent || p.awayTeamId == Val(m.awayTeamId)
    requires p.phaseId == Absent || p.phaseId == Val(m.phaseId)
    requires p.isPlayed == Absent || p.isPlayed == Val(m.isPlayed)
    requires KeepNullable(m.groupId, p.groupId) == m.groupId
    requires KeepNullable(m.homeScore, p.homeScore) == m.homeScore
    requires KeepNullable(m.awayScore, p.awayScore) == m.awayScore
    requires KeepNullable(m.matchDate, p.matchDate) == m.matchDate
    requires KeepNullable(m.round, p.round) == m.round
    requires KeepNullable(m.gameweek, p.gameweek) == m.gameweek
    ensures UpdateMatch(m, p, refs) == Some(m)
  {
  }
}

=== FILE: seqs.dfy ===
/** Order-preserving filtering and counting over sequences. */
module Seqs {

  /** The sub-sequence of `xs` whose elements satisfy `p`, in their original order
      (JavaScript's `Array.prototype.filter`, SQL `WHERE`). */
  function Filter<T(!new)>(xs: seq<T>, p: T -> bool): (r: seq<T>)
    ensures |r| <= |xs|
    ensures forall x :: x in r <==> x in xs && p(x)
    ensures forall x :: multiset(r)[x] == if p(x) then multiset(xs)[x] else 0
  {
    if |xs| == 0 then []
    else
      assert xs == [xs[0]] + xs[1..];
      (if p(xs[0]) then [xs[0]] else []) + Filter(xs[1..], p)
  }

  /** Filtering distributes over concatenation: the filter keeps the relative order of what it keeps. */
  lemma {:induction false} FilterAppend<T(!new)>(a: seq<T>, b: seq<T>, p: T -> bool)
    ensures Filter(a + b, p) == Filter(a, p) + Filter(b, p)
  {
    if |a| == 0 {
      assert a + b == b;
    } else {
      assert (a + b)[1..] == a[1..] + b;
      FilterAppend(a[1..], b, p);
    }
  }

  /** The number of elements of `xs` that satisfy `p` (SQL `COUNT(*) ... WHERE p`). */
  function Count<T(!new)>(xs: seq<T>, p: T -> bool): (n: nat)
    ensures n <= |xs|
    ensures n == 0 <==> forall x :: x in xs ==> !p(x)
  {
    if |xs| == 0 then 0
    else
      assert forall x :: x in xs ==> x == xs[0] || x in xs[1..];
      (if p(xs[0]) then 1 else 0) + Count(xs[1..], p)
  }

  /** The count is the length of the filtered sequence. */
  lemma {:induction false} CountIsFilterSize<T(!new)>(xs: seq<T>, p: T -> bool)
    ensures Count(xs, p) == |Filter(xs, p)|
  {
    if |xs| > 0 {
      CountIsFilterSize(xs[1..], p);
    }
  }

  /** Counting is monotone in the predicate. */
  lemma {:induction false} CountMonotone<T(!new)>(xs: seq<T>, p: T -> bool, q: T -> bool)
    requires forall x :: x in xs && p(x) ==> q(x)
    ensures Count(xs, p) <= Count(xs, q)
  {
    if |xs| > 0 {
      assert forall x :: x in xs[1..] ==> x in xs;
      CountMonotone(xs[1..], p, q);
    }
  }

  /** Counting is additive over concatenation. */
  lemma {:induction false} CountAppend<T(!new)>(a: seq<T>, b: seq<T>, p: T -> bool)
    ensures Count(a + b, p) == Count(a, p) + Count(b, p)
  {
    if |a| == 0 {
      assert a + b == b;
    } else {
      assert (a + b)[1..] == a[1..] + b;
      CountAppend(a[1..], b, p);
    }
  }
}

=== FILE: sorting.dfy ===
/** Stable sorting by a total preorder, and the "first k after sorting" of SQL `ORDER BY ... LIMIT k`. */
module Sorting {

  /** `le` is total and transitive: a valid sort order in which distinct values may tie. */
  ghost predicate TotalPreorder<T(!new)>(le: (T, T) -> bool) {
    && (forall a, b :: le(a, b) || le(b, a))
    && (forall a, b, c :: le(a, b) && le(b, c) ==> le(a, c))
  }

  /** Every element ranks no later than every element after it. */
  predicate Sorted<T>(s: seq<T>, le: (T, T) -> bool) {
    forall i, j :: 0 <= i < j < |s| ==> le(s[i], s[j])
  }

  /** Inserts `x` before the first element it may precede, so that among equal elements
      `x` comes first. */
  function Insert<T(!new)>(x: T, s: seq<T>, le: (T, T) -> bool): (r: seq<T>)
    requires TotalPreorder(le)
    requires Sorted(s, le)
    ensures |r| == |s| + 1
    ensures multiset(r) == multiset(s) + multiset{x}
    ensures Sorted(r, le)
  {
    if |s| == 0 then [x]
    else if le(x, s[0]) then [x] + s
    else
      var rest := Insert(x, s[1..], le);
      assert s == [s[0]] + s[1..];
      assert forall y :: y in rest ==> le(s[0], y) by {
        forall y | y in rest ensures le(s[0], y) {
          assert y in multiset(rest);
          if y != x {
            assert y in multiset(s[1..]);
            var j :| 0 <= j < |s[1..]| && s[1..][j] == y;
            assert s[j + 1] == y;
          }
        }
      }
      [s[0]] + rest
  }

  /** A stable insertion sort: the result is an ordered permutation of `xs`. */
  function InsertionSort<T(!new)>(xs: seq<T>, le: (T, T) -> bool): (r: seq<T>)
    requires TotalPreorder(le)
    ensures |r| == |xs|
    ensures multiset(r) == multiset(xs)
    ensures Sorted(r, le)
  {
    if |xs| == 0 then []
    else
      assert xs == [xs[0]] + xs[1..];
      Insert(xs[0], InsertionSort(xs[1..], le), le)
  }

  function Min(a: int, b: int): int {
    if a <= b then a else b
  }

  /** The first `k` elements of `xs` in `le` order: an ordered sub-multiset of `xs` of size
      min(k, |xs|) such that no element left out ranks ahead of any element kept. */
  function TopBy<T(!new)>(xs: seq<T>, le: (T, T) -> bool, k: nat): (r: seq<T>)
    requires TotalPreorder(le)
    ensures |r| == Min(k, |xs|)
    ensures Sorted(r, le)
    ensures multiset(r) <= multiset(xs)
    ensures forall x, y :: x in multiset(xs) - multiset(r) && y in r ==> le(y, x)
  {
    var s := InsertionSort(xs, le);
    var m := Min(k, |s|);
    assert s == s[..m] + s[m..];
    assert multiset(s) == multiset(s[..m]) + multiset(s[m..]);
    assert forall x, y :: x in multiset(xs) - multiset(s[..m]) && y in s[..m] ==> le(y, x) by {
      forall x, y | x in multiset(xs) - multiset(s[..m]) && y in s[..m] ensures le(y, x) {
        assert x in multiset(s[m..]);
        assert x in s[m..];
        var j :| 0 <= j < |s[m..]| && s[m..][j] == x;
        var i :| 0 <= i < m && s[i] == y;
        assert s[m + j] == x;
      }
    }
    s[..m]
  }
}

=== FILE: storage.dfy ===
/** The read queries of the storage layer that carry logic: groups of a phase by name,
    a group's table by position, and the two all-time leaderboards computed from the
    match history. Rows are plain records; the joins that attach team, country and phase
    records are left to the caller. */
module Storage {
  import opened Wrappers
  import opened Schema
  import Seqs
  import Sorting
  import Collation

  /** Both leaderboards return at most this many rows (`.limit(8)`). */
  const LeaderboardLimit: nat := 8

  // ---------------------------------------------------------------------------------------
  // Filtered, ordered reads

  function ByName(): (Group, Group) -> bool {
    (a: Group, b: Group) => Collation.NameLe(a.name, b.name)
  }

  lemma ByNameIsTotalPreorder()
    ensures Sorting.TotalPreorder(ByName())
  {
    forall a: Group, b: Group ensures ByName()(a, b) || ByName()(b, a) {
      Collation.NameLeTotal(a.name, b.name);
    }
    forall a: Group, b: Group, c: Group | ByName()(a, b) && ByName()(b, c)
      ensures ByName()(a, c)
    {
      Collation.NameLeTransitive(a.name, b.name, c.name);
    }
  }

  /** `getGroupsByPhase`: every group of the phase, each as often as it is stored, and no
      other group, in ascending name order. */
  function GroupsByPhase(groups: seq<Group>, phaseId: Id): (r: seq<Group>)
    ensures forall g :: multiset(r)[g] == if g.phaseId == phaseId then multiset(groups)[g] else 0
    ensures forall g :: g in r <==> g in groups && g.phaseId == phaseId
    ensures forall i, j :: 0 <= i < j < |r| ==> Collation.NameLe(r[i].name, r[j].name)
  {
    ByNameIsTotalPreorder();
    var r := Sorting.InsertionSort(Seqs.Filter(groups, (g: Group) => g.phaseId == phaseId), ByName());
    assert forall g :: g in r <==> g in multiset(r);
    r
  }

  function ByPosition(): (GroupStanding, GroupStanding) -> bool {
    (a: GroupStanding, b: GroupStanding) => a.position <= b.position
  }

  /** `getGroupStandings`: the rows of the group and no others, in ascending position order.
      Positions are not required to be distinct; the order of equal positions is not fixed. */
  function GroupStandings(store: seq<GroupStanding>, groupId: Id): (r: seq<GroupStanding>)
    ensures forall s :: multiset(r)[s] == if s.groupId == groupId then multiset(store)[s] else 0
    ensures forall s :: s in r <==> s in store && s.groupId == groupId
    ensures forall i, j :: 0 <= i < j < |r| ==> r[i].position <= r[j].position
  {
    var r := Sorting.InsertionSort(Seqs.Filter(store, (s: GroupStanding) => s.groupId == groupId), ByPosition());
    assert forall s :: s in r <==> s in multiset(r);
    r
  }

  /** The group's table has one row per stored row of the group. */
  lemma GroupStandingsSize(store: seq<GroupStanding>, groupId: Id)
    ensures |GroupStandings(store, groupId)| == Seqs.Count(store, (s: GroupStanding) => s.groupId == groupId)
  {
    var r := GroupStandings(store, groupId);
    var f := Seqs.Filter(store, (s: GroupStanding) => s.groupId == groupId);
    Seqs.CountIsFilterSize(store, (s: GroupStanding) => s.groupId == groupId);
    assert multiset(r) == multiset(f);
    assert |r| == |multiset(r)| == |multiset(f)| == |f|;
  }

  // ---------------------------------------------------------------------------------------
  // Goals scored

  /** A team takes part in a match counted by the statistics: the match is played and the
      team is on either side. */
  predicate Appears(teamId: Id, m: Match) {
    m.isPlayed && (m.homeTeamId == teamId || m.awayTeamId == teamId)
  }

  /** What one match adds to a team's goals: its home score when it is the home side plus its
      away score when it is the away side, a NULL score counting as 0; nothing if unplayed. */
  function MatchGoals(teamId: Id, m: Match): (r: int)
    ensures !Appears(teamId, m) ==> r == 0
    ensures Appears(teamId, m) && m.homeTeamId != m.awayTeamId ==>
              r == if m.homeTeamId == teamId then m.homeScore.GetOr(0) else m.awayScore.GetOr(0)
  {
    if !m.isPlayed then 0
    else
      (if m.homeTeamId == teamId then m.homeScore.GetOr(0) else 0)
      + (if m.awayTeamId == teamId then m.awayScore.GetOr(0) else 0)
  }

  /** A team's all-time goals with a NULL score counted as 0 (the total the query's
      `COALESCE` evidently intends). A team that appears in no played match has 0. */
  function GoalsScored(teamId: Id, ms: seq<Match>): (r: int)
    ensures (forall m :: m in ms ==> !Appears(teamId, m)) ==> r == 0
  {
    if |ms| == 0 then 0
    else
      assert ms[0] in ms;
      assert forall m :: m in ms[1..] ==> m in ms;
      MatchGoals(teamId, ms[0]) + GoalsScored(teamId, ms[1..])
  }

  /** Goal totals add up over a split of the match history. */
  lemma {:induction false} GoalsScoredAppend(teamId: Id, a: seq<Match>, b: seq<Match>)
    ensures GoalsScored(teamId, a + b) == GoalsScored(teamId, a) + GoalsScored(teamId, b)
  {
    if |a| == 0 {
      assert a + b == b;
    } else {
      assert (a + b)[1..] == a[1..] + b;
      GoalsScoredAppend(teamId, a[1..], b);
    }
  }

  /** SQL `SUM` over a nullable column: NULL when every value is NULL (or there are no rows),
      otherwise the sum of the non-NULL values. */
  function SqlSum(vals: seq<Option<int>>): (r: Option<int>)
    ensures r == None <==> forall i :: 0 <= i < |vals| ==> vals[i] == None
  {
    if |vals| == 0 then None
    else
      var rest := SqlSum(vals[1..]);
      assert forall i :: 1 <= i < |vals| ==> vals[1..][i - 1] == vals[i];
      match vals[0]
      case None => rest
      case Some(v) => Some(v + rest.GetOr(0))
  }

  /** The sum with NULLs read as 0. */
  function SumOrZero(vals: seq<Option<int>>): int {
    if |vals| == 0 then 0 else vals[0].GetOr(0) + SumOrZero(vals[1..])
  }

  lemma {:induction false} SqlSumSkipsNulls(vals: seq<Option<int>>)
    ensures SqlSum(vals).GetOr(0) == SumOrZero(vals)
  {
    if |vals| > 0 {
      SqlSumSkipsNulls(vals[1..]);
    }
  }

  lemma {:induction false} SumOrZeroOfZeros(vals: seq<Option<int>>)
    requires forall i :: 0 <= i < |vals| ==> vals[i].GetOr(0) == 0
    ensures SumOrZero(vals) == 0
  {
    if |vals| > 0 {
      SumOrZeroOfZeros(vals[1..]);
    }
  }

  /** `CASE WHEN home_team_id = team THEN home_score ELSE 0 END`, row by row. */
  function HomeColumn(teamId: Id, rows: seq<Match>): (c: seq<Option<int>>)
    ensures |c| == |rows|
  {
    if |rows| == 0 then []
    else [if rows[0].homeTeamId == teamId then rows[0].homeScore else Some(0)] + HomeColumn(teamId, rows[1..])
  }

  /** `CASE WHEN away_team_id = team THEN away_score ELSE 0 END`, row by row. */
  function AwayColumn(teamId: Id, rows: seq<Match>): (c: seq<Option<int>>)
    ensures |c| == |rows|
  {
    if |rows| == 0 then []
    else [if rows[0].awayTeamId == teamId then rows[0].awayScore else Some(0)] + AwayColumn(teamId, rows[1..])
  }

  lemma {:induction false} ColumnsAt(teamId: Id, rows: seq<Match>, i: int)
    requires 0 <= i < |rows|
    ensures HomeColumn(teamId, rows)[i] == if rows[i].homeTeamId == teamId then rows[i].homeScore else Some(0)
    ensures AwayColumn(teamId, rows)[i] == if rows[i].awayTeamId == teamId then rows[i].awayScore else Some(0)
  {
    if i > 0 {
      ColumnsAt(teamId, rows[1..], i - 1);
    }
  }

  /** The subquery's rows: `WHERE (home_team_id = t OR away_team_id = t) AND is_played`. */
  function PlayedRows(teamId: Id, ms: seq<Match>): (rows: seq<Match>)
    ensures forall m :: m in rows <==> m in ms && Appears(teamId, m)
  {
    Seqs.Filter(ms, (m: Match) => Appears(teamId, m))
  }

  /** The goals subquery of `getTopGoalScorers` as written: over the team's played matches,
      `COALESCE(SUM(home case) + SUM(away case), 0)`. A SUM whose values are all NULL is
      NULL, and NULL plus anything is NULL, so the total falls back to 0. */
  function GoalsQuery(teamId: Id, ms: seq<Match>): (r: int)
    ensures (forall m :: m in ms ==> !Appears(teamId, m)) ==> r == 0
  {
    var rows := PlayedRows(teamId, ms);
    match (SqlSum(HomeColumn(teamId, rows)), SqlSum(AwayColumn(teamId, rows)))
    case (Some(h), Some(a)) => h + a
    case _ => 0
  }

  /** Over matches the team appears in, the reference total splits into the two columns. */
  lemma {:induction false} GoalsScoredByColumns(teamId: Id, rows: seq<Match>)
    requires forall m :: m in rows ==> Appears(teamId, m)
    ensures GoalsScored(teamId, rows) == SumOrZero(HomeColumn(teamId, rows)) + SumOrZero(AwayColumn(teamId, rows))
  {
    if |rows| > 0 {
      assert rows[0] in rows;
      assert forall m :: m in rows[1..] ==> m in rows;
      GoalsScoredByColumns(teamId, rows[1..]);
    }
  }

  /** Matches the team does not appear in add nothing to the reference total. */
  lemma {:induction false} GoalsScoredOfAppearances(teamId: Id, ms: seq<Match>)
    ensures GoalsScored(teamId, PlayedRows(teamId, ms)) == GoalsScored(teamId, ms)
  {
    if |ms| > 0 {
      var p := (m: Match) => Appears(teamId, m);
      assert ms == [ms[0]] + ms[1..];
      Seqs.FilterAppend([ms[0]], ms[1..], p);
      GoalsScoredAppend(teamId, Seqs.Filter([ms[0]], p), Seqs.Filter(ms[1..], p));
      assert Seqs.Filter([ms[0]], p) == if p(ms[0]) then [ms[0]] else [];
      GoalsScoredOfAppearances(teamId, ms[1..]);
    }
  }

  /** When either column's SUM is NULL, and no row is a self-match, both columns hold only
      zeros and NULLs. */
  lemma NullColumnMeansNoGoals(teamId: Id, rows: seq<Match>)
    requires forall m :: m in rows ==> Appears(teamId, m) && m.homeTeamId != m.awayTeamId
    requires SqlSum(HomeColumn(teamId, rows)) == None || SqlSum(AwayColumn(teamId, rows)) == None
    ensures SumOrZero(HomeColumn(teamId, rows)) == 0 && SumOrZero(AwayColumn(teamId, rows)) == 0
  {
    var home := HomeColumn(teamId, rows);
    var away := AwayColumn(teamId, rows);
    forall i | 0 <= i < |rows|
      ensures home[i].GetOr(0) == 0 && away[i].GetOr(0) == 0
    {
      ColumnsAt(teamId, rows, i);
      assert rows[i] in rows;
    }
    SumOrZeroOfZeros(home);
    SumOrZeroOfZeros(away);
  }

  /** Unless the team played a match against itself, the query's total is exactly the
      reference total: NULL scores count as 0. */
  lemma GoalsQueryAgreesWithoutSelfMatch(teamId: Id, ms: seq<Match>)
    requires forall m :: m in ms && Appears(teamId, m) ==> m.homeTeamId != m.awayTeamId
    ensures GoalsQuery(teamId, ms) == GoalsScored(teamId, ms)
  {
    var rows := PlayedRows(teamId, ms);
    assert forall m :: m in rows ==> Appears(teamId, m) && m.homeTeamId != m.awayTeamId;
    GoalsScoredOfAppearances(teamId, ms);
    GoalsScoredByColumns(teamId, rows);
    SqlSumSkipsNulls(HomeColumn(teamId, rows));
    SqlSumSkipsNulls(AwayColumn(teamId, rows));
    if SqlSum(HomeColumn(teamId, rows)) == None || SqlSum(AwayColumn(teamId, rows)) == None {
      NullColumnMeansNoGoals(teamId, rows);
    }
  }

  /** A played match of a team against itself with a NULL home score and an away score of 2:
      the query reports 0 goals although the away side scored 2. */
  lemma SelfMatchLosesGoals(teamId: Id, phaseId: Id, id: Id, now: Timestamp)
    ensures var m := Match(id, teamId, teamId, phaseId, None, None, Some(2), true, None, None, None, now);
            GoalsQuery(teamId, [m]) == 0 && GoalsScored(teamId, [m]) == 2
  {
    var m := Match(id, teamId, teamId, phaseId, None, None, Some(2), true, None, None, None, now);
    var rows := Seqs.Filter([m], (x: Match) => Appears(teamId, x));
    assert rows == [m];
    assert SqlSum(HomeColumn(teamId, rows)) == None;
  }

  // ---------------------------------------------------------------------------------------
  // Clean sheets

  /** A played match in which the team's opponent side scored 0 (a NULL score reads as 0). */
  predicate KeptCleanSheet(teamId: Id, m: Match) {
    m.isPlayed
    && ((m.homeTeamId == teamId && m.awayScore.GetOr(0) == 0)
     || (m.awayTeamId == teamId && m.homeScore.GetOr(0) == 0))
  }

  /** Outside a self-match, a clean sheet is a played appearance in which the opponent's
      score is 0 or NULL. */
  lemma CleanSheetMeansOpponentScoredNothing(teamId: Id, m: Match)
    requires m.homeTeamId != m.awayTeamId
    ensures KeptCleanSheet(teamId, m) <==>
              Appears(teamId, m)
              && (if m.homeTeamId == teamId then m.awayScore else m.homeScore).GetOr(0) == 0
  {
  }

  /** The number of played matches in which the team appears. */
  function Appearances(teamId: Id, ms: seq<Match>): nat {
    Seqs.Count(ms, (m: Match) => Appears(teamId, m))
  }

  /** The clean-sheet subquery of `getTopDefenders`: `COUNT(*)` of the matching played rows.
      A team never keeps more clean sheets than it has played matches. */
  function CleanSheets(teamId: Id, ms: seq<Match>): (r: nat)
    ensures r <= Appearances(teamId, ms)
  {
    Seqs.CountMonotone(ms, (m: Match) => KeptCleanSheet(teamId, m), (m: Match) => Appears(teamId, m));
    Seqs.Count(ms, (m: Match) => KeptCleanSheet(teamId, m))
  }

  /** Clean sheets add up over a split of the match history, and an unplayed match never
      changes a count. */
  lemma CleanSheetsAppend(teamId: Id, a: seq<Match>, b: seq<Match>)
    ensures CleanSheets(teamId, a + b) == CleanSheets(teamId, a) + CleanSheets(teamId, b)
  {
    Seqs.CountAppend(a, b, (m: Match) => KeptCleanSheet(teamId, m));
  }

  lemma UnplayedMatchKeepsCleanSheets(teamId: Id, ms: seq<Match>, m: Match)
    requires !m.isPlayed
    ensures CleanSheets(teamId, ms + [m]) == CleanSheets(teamId, ms)
  {
    CleanSheetsAppend(teamId, ms, [m]);
    assert CleanSheets(teamId, [m]) == 0;
  }

  lemma UnplayedMatchKeepsGoals(teamId: Id, ms: seq<Match>, m: Match)
    requires !m.isPlayed
    ensures GoalsScored(teamId, ms + [m]) == GoalsScored(teamId, ms)
  {
    GoalsScoredAppend(teamId, ms, [m]);
    assert GoalsScored(teamId, [m]) == 0;
  }

  lemma UnplayedMatchKeepsGoalsQuery(teamId: Id, ms: seq<Match>, m: Match)
    requires !m.isPlayed
    ensures GoalsQuery(teamId, ms + [m]) == GoalsQuery(teamId, ms)
  {
    UnplayedMatchIsNoRow(teamId, ms, m);
  }

  /** The query's row filter drops an unplayed match. */
  lemma UnplayedMatchIsNoRow(teamId: Id, ms: seq<Match>, m: Match)
    requires !m.isPlayed
    ensures PlayedRows(teamId, ms + [m]) == PlayedRows(teamId, ms)
  {
    var p := (x: Match) => Appears(teamId, x);
    Seqs.FilterAppend(ms, [m], p);
    assert Seqs.Filter([m], p) == [];
    assert Seqs.Filter(ms, p) + [] == Seqs.Filter(ms, p);
  }

  // ---------------------------------------------------------------------------------------
  // Leaderboards

  /** One leaderboard row: the team and its statistic (`allTimeGoals` or `allTimeCleanSheets`). */
  datatype StatRow = StatRow(team: Team, value: int)

  /** One row per team (the query selects from `teams`). */
  function ScoreRows(teams: seq<Team>, score: Team -> int): (r: seq<StatRow>)
    ensures |r| == |teams|
    ensures forall i :: 0 <= i < |r| ==> r[i] == StatRow(teams[i], score(teams[i]))
  {
    if |teams| == 0 then [] else [StatRow(teams[0], score(teams[0]))] + ScoreRows(teams[1..], score)
  }

  function ByValueDesc(): (StatRow, StatRow) -> bool {
    (a: StatRow, b: StatRow) => a.value >= b.value
  }

  /** `ORDER BY score DESC LIMIT 8` over all teams: min(8, |teams|) rows of teams with their
      scores, non-increasing, drawn from the one-row-per-team list. The order of equal scores
      is not fixed by the query. */
  function Leaderboard(teams: seq<Team>, score: Team -> int): (r: seq<StatRow>)
    ensures |r| == Sorting.Min(LeaderboardLimit, |teams|)
    ensures forall i :: 0 <= i < |r| ==> r[i].team in teams && r[i].value == score(r[i].team)
    ensures forall i, j :: 0 <= i < j < |r| ==> r[i].value >= r[j].value
    ensures multiset(r) <= multiset(ScoreRows(teams, score))
  {
    var rows := ScoreRows(teams, score);
    var r := Sorting.TopBy(rows, ByValueDesc(), LeaderboardLimit);
    assert forall i :: 0 <= i < |r| ==> r[i] in multiset(rows) && r[i] in rows;
    r
  }

  /** No team left off the leaderboard scores more than a team on it. */
  lemma LeaderboardKeepsBest(teams: seq<Team>, score: Team -> int)
    ensures var r := Leaderboard(teams, score);
            forall t, i :: t in teams && (forall j :: 0 <= j < |r| ==> r[j].team != t) && 0 <= i < |r|
              ==> score(t) <= r[i].value
  {
    var rows := ScoreRows(teams, score);
    var r := Leaderboard(teams, score);
    assert r == Sorting.TopBy(rows, ByValueDesc(), LeaderboardLimit);
    forall t, i | t in teams && (forall j :: 0 <= j < |r| ==> r[j].team != t) && 0 <= i < |r|
      ensures score(t) <= r[i].value
    {
      var k :| 0 <= k < |teams| && teams[k] == t;
      var row := rows[k];
      assert row !in r;
      assert row in multiset(rows) - multiset(r);
      assert r[i] in r;
    }
  }

  /** The goals column each team is ranked by. */
  function GoalsScore(ms: seq<Match>): Team -> int {
    (t: Team) => GoalsQuery(t.id, ms)
  }

  /** The clean-sheets column each team is ranked by. */
  function CleanSheetScore(ms: seq<Match>): Team -> int {
    (t: Team) => CleanSheets(t.id, ms)
  }

  /** `getTopGoalScorers`: the eight best goal totals as the query computes them. */
  function TopGoalScorers(teams: seq<Team>, ms: seq<Match>): (r: seq<StatRow>)
    ensures |r| == Sorting.Min(LeaderboardLimit, |teams|)
    ensures forall i :: 0 <= i < |r| ==> r[i].team in teams && r[i].value == GoalsQuery(r[i].team.id, ms)
    ensures forall i, j :: 0 <= i < j < |r| ==> r[i].value >= r[j].value
    ensures forall t, i :: t in teams && (forall j :: 0 <= j < |r| ==> r[j].team != t) && 0 <= i < |r|
              ==> GoalsQuery(t.id, ms) <= r[i].value
    ensures multiset(r) <= multiset(ScoreRows(teams, GoalsScore(ms)))
  {
    var score := GoalsScore(ms);
    LeaderboardKeepsBest(teams, score);
    Leaderboard(teams, score)
  }

  /** `getTopDefenders`: the eight best clean-sheet counts. */
  function TopDefenders(teams: seq<Team>, ms: seq<Match>): (r: seq<StatRow>)
    ensures |r| == Sorting.Min(LeaderboardLimit, |teams|)
    ensures forall i :: 0 <= i < |r| ==> r[i].team in teams && r[i].value == CleanSheets(r[i].team.id, ms)
    ensures forall i, j :: 0 <= i < j < |r| ==> r[i].value >= r[j].value
    ensures forall t, i :: t in teams && (forall j :: 0 <= j < |r| ==> r[j].team != t) && 0 <= i < |r|
              ==> CleanSheets(t.id, ms) <= r[i].value
    ensures multiset(r) <= multiset(ScoreRows(teams, CleanSheetScore(ms)))
  {
    var score := CleanSheetScore(ms);
    LeaderboardKeepsBest(teams, score);
    Leaderboard(teams, score)
  }
}

=== FILE: wrappers.dfy ===
/** Optional values: SQL NULL, a JavaScript `undefined` or `null`, an absent relation. */
module Wrappers {

  datatype Option<+T> = None | Some(value: T) {

    /** The value, or `default` when there is none (SQL `COALESCE`, JavaScript `?? default`). */
    function GetOr(default: T): T {
      match this
      case Some(v) => v
      case None => default
    }
  }
}
